=== FILE: README.md ===
# debugger — a Dafny model of the pipeline debugger's decision logic

The debugger is a command-line tool for the image-processing pipeline.
It finds the caller's cloud instance and starts, stops or terminates it.
It pushes the working-tree changes to the instance and fetches a flight's
input descriptor there. It then runs the pipeline over a remote shell.
Instances are created through a containerised management script.

Around the SSH, SCP, cloud, registry and container clients there is a small
amount of pure decision and string logic. This project models that logic
functionally. Every externally visible effect becomes an `Event` appended to
a trace. These are log records, lifecycle calls, remote commands, file
copies, token fetches, image pulls and container starts. Every step returns
an `Outcome`. That is either `Done(trace, value)` or `Stopped(trace, halt)`,
where the halt is an exit or a raised Python exception. Everything the
program learns from outside is an input:

- the process environment;
- the files that exist;
- the provider's pages of instances;
- the result of a lifecycle call;
- the diff output;
- what the remote side does with a command;
- the registry's answers;
- the container's log lines.

Modules, following the program's structure:

| module | file | models |
|---|---|---|
| `Effects` | effects.dfy | events, outcomes, exceptions; the commands and copies a trace contains |
| `Text` | text.dfy | Python's `str.split`, `str.join` and `str.strip` on one character |
| `Locator` | locator.dfy | the instance query's filter and the count-based instance choice |
| `Runner` | runner.dfy | key-path lookup, construction, the start/stop/terminate guards |
| `Session` | session.dfy | the line splitter, key loading, connection, one remote command and its result |
| `Sync` | sync.dfy | changed-file parsing, upload mapping and order, the descriptor sync command |
| `Manager` | manager.dfy | registry login, the pull-with-one-retry policy, container arguments, management commands |
| `Cli` | cli.dfy | argument classification, the `run` workflow, runner commands, error translation |

The model follows the code as written. These behaviours of the code are
stated as lemmas:

- `stop_ec2`'s warning tests the `instance_state` attribute. It is `None`
  after construction and is never assigned, so that warning can never fire
  (`Runner.StopSilentWhenNotRunning`). Every lifecycle warning prints
  `state:None` (`Runner.WarningsShowNone`). Since the recorded state is never
  `running`, `run` always calls `start_ec2`, and its events begin with that
  call's (`Cli.RunWorkflow`, `Cli.WorkflowStartsStoppedInstance`).
- `run` pushes the changes with `update` before any remote command has
  opened a session. With two or more changed files the upload therefore
  looks up a transport on `None` and raises `AttributeError`
  (`Cli.WorkflowUploadNeedsSession`). A single changed file is never
  uploaded (`Sync.SingleFileNeverUploaded`).
- A command's result holds only the stdout the line splitter did not read.
  A partial last line that was read is neither logged nor returned
  (`Session.StdoutAccounting`, `Session.FullyStreamedExample`,
  `Session.UnstreamedExample`).
- The key-path lookup reads `ANALYTICS_PEM`. Its diagnostics name
  `PEM_FILE_PATH` (`Runner.GetAnalyticsPem`).
- `run` with no flight code, or with more than three arguments, raises
  `TypeError` and not the command line's `LookupError` (`Cli.Classify`,
  `Cli.Cli`). A located instance
  without a network interface raises `IndexError`, which the command line
  reports as an invalid command (`Cli.MissingAddressIsInvalidCommand`).
  With no matching instance, construction raises `AttributeError`.
- The pipeline reads the descriptor the sync wrote exactly when the flight
  code is not an absolute path (`Cli.SyncPathConsistency`).

## Model

| member | source | states |
|---|---|---|
| Locator.FilterExcludesTerminated | debugger/pipeline_runner/utils.py:15-23 | the query accepts every provider state except `terminated` |
| Locator.SelectedIff | debugger/pipeline_runner/utils.py:15-23 | an instance matches the query iff it carries the caller's `UserCreated` tag and is not terminated |
| Locator.FlattenLength | debugger/pipeline_runner/utils.py:35-37 | collecting the pages keeps every instance: the collected list is as long as all pages together |
| Locator.GetInstance | debugger/pipeline_runner/utils.py:26-45 | exactly one instance across all pages is returned silently, and it is the one on the pages; none gives `None` silently; several log the diagnostic and exit |
| Runner.EnvironmentValues | debugger/pipeline_runner/runner.py:50 | the recorded environments are exactly the values of the `Environment` tags |
| Runner.EnvironmentValuesAppend | debugger/pipeline_runner/runner.py:50 | the tag filter keeps tag order: filtering a concatenation concatenates the filtered parts |
| Runner.GetAnalyticsPem | debugger/pipeline_runner/runner.py:99-110 | the key path is `ANALYTICS_PEM`'s value iff that is set and exists; otherwise exit after exactly one diagnostic naming `PEM_FILE_PATH`: the export hint when the variable is unset, the no-such-file message when the path does not exist |
| Runner.NewRunner | debugger/pipeline_runner/runner.py:26-50 | construction records the sole instance, its id, first private address and environment tags, state `None`, unconnected; one match with a private address always gives a runner; zero matches raise `AttributeError`, several exit, no address raises `IndexError` |
| Runner.Attempt | debugger/pipeline_runner/runner.py:54-60 | a lifecycle call comes first; it succeeds iff the provider accepts it, and then logs the success message; a failure logs the provider's message and re-raises it as a client error |
| Runner.StartEc2 | debugger/pipeline_runner/runner.py:52-62 | a start call is made iff the provider reports `stopped`, and it is the only cloud call; on `stopped` the outcome is exactly the attempt of that call, logging "Started instance" on success; otherwise exactly one warning |
| Runner.StopEc2 | debugger/pipeline_runner/runner.py:64-74 | a stop call is made iff the provider reports `running` or `pending`, and the outcome is then exactly the attempt of that call, logging "successfully stopped" on success; when the recorded `instance_state` is `stopping` or `stopped` the only event is the warning naming that state; otherwise nothing happens |
| Runner.KillEc2 | debugger/pipeline_runner/runner.py:76-86 | a terminate call is made iff the provider reports `stopped`, and the outcome is then exactly the attempt of that call, logging "successfully terminated" on success; otherwise exactly one warning |
| Runner.StopSilentWhenNotRunning | debugger/pipeline_runner/runner.py:64-74 | for a runner as constructed, stopping an instance that is neither running nor pending does nothing at all |
| Runner.WarningsShowNone | debugger/pipeline_runner/runner.py:52-86 | for a runner as constructed, the start and terminate warnings print the state as `None` |
| Text.JoinSplit | debugger/pipeline_runner/runner.py:187 | joining the pieces of a split gives back the string |
| Text.SplitJoin | debugger/pipeline_runner/runner.py:187 | splitting the join of separator-free pieces gives back the pieces |
| Text.Strip | debugger/pipeline_runner/runner.py:163 | the stripped string neither starts nor ends with the character, and is empty iff the input is all that character |
| Text.StripRemovesOnlyEnds | debugger/pipeline_runner/runner.py:163 | stripping removes only copies of the character, and only around one contiguous piece |
| Text.StripIdempotent | debugger/pipeline_runner/runner.py:163 | stripping twice equals stripping once |
| Session.LinesSnoc | debugger/pipeline_runner/runner.py:145-150 | one more newline completes the partial line; any other character extends it |
| Session.LinesDecompose | debugger/pipeline_runner/runner.py:145-150 | the complete lines followed by the partial line are exactly the characters read; each complete line is a line; the partial line has no newline |
| Session.Consumed | debugger/pipeline_runner/runner.py:146-147 | the splitter reads one character per poll until the polls or the stream run out |
| Session.LineBuffered | debugger/pipeline_runner/runner.py:140-150 | the yielded lines are the complete lines of what was read; each ends in its only newline; together they are a prefix of it, and the rest holds no newline |
| Session.LogLines | debugger/pipeline_runner/runner.py:160-161 | one informational record per yielded line, in order; a complete line is logged as its text without its newline |
| Session.LoggedLineIsContent | debugger/pipeline_runner/runner.py:161 | a yielded line is logged as its text without the newline |
| Session.Summary | debugger/pipeline_runner/runner.py:164-167 | the summary logs the fatal record `[debugger]: <stderr>` iff stderr is non-empty, and first; it logs the record `[debugger]: OUT: <stdout>` iff stdout is non-empty; nothing else is logged and no command is sent |
| Session.Transcript | debugger/pipeline_runner/runner.py:157-167 | a connected run sends exactly its command, copies nothing, logs the lines right after the command, and logs fatally iff stderr is non-empty |
| Session.Execute | debugger/pipeline_runner/runner.py:157-168 | a connected run returns the unread stdout and all stderr, both stripped of newlines, and marks the session connected |
| Session.Run | debugger/pipeline_runner/runner.py:112-168 | the command is sent iff the key loads and the connection succeeds; a missing key logs fatally and fails unpacking (`TypeError`); a failed connection exits; the result is stripped; fatal logging iff stderr is not all newlines |
| Session.RunTranscript | debugger/pipeline_runner/runner.py:157-161 | a completed run logs the connection, the announcement and the command, then each complete line read, in order |
| Session.RunCopiesNothing | debugger/pipeline_runner/runner.py:152-168 | running a command never copies a file |
| Session.StdoutAccounting | debugger/pipeline_runner/runner.py:146-163 | stdout is the logged lines, then the read partial line (never logged), then the returned remainder |
| Session.FullyStreamedExample | debugger/pipeline_runner/runner.py:146-168 | output read to its end while the command runs is logged line by line, and the run returns empty stdout |
| Session.UnstreamedExample | debugger/pipeline_runner/runner.py:146-168 | output not read before the exit status is ready is returned whole, stripped |
| Sync.GitDiff | debugger/pipeline_runner/runner.py:187 | the parsed list is never empty; it joins back to the stripped output; no output gives `[""]` |
| Sync.GitDiffOfNames | debugger/pipeline_runner/runner.py:187 | one output line per file parses back to exactly the files, in order |
| Sync.GitDiffSingle | debugger/pipeline_runner/runner.py:187 | one changed file parses to a one-element list |
| Sync.UploadPairs | debugger/pipeline_runner/runner.py:193 | each file keeps its place in the list; its destination lies in `~/<directory>/`, and the file is exactly what follows that prefix |
| Sync.DestinationsDistinct | debugger/pipeline_runner/runner.py:193 | two files get the same destination iff they are the same file |
| Sync.CopyEvents | debugger/pipeline_runner/runner.py:175-177 | one copy per pair, in pair order, and no command |
| Sync.Upload | debugger/pipeline_runner/runner.py:170-177 | copying succeeds iff a session is connected, with exactly the given copies; otherwise `AttributeError` before any copy |
| Sync.Update | debugger/pipeline_runner/runner.py:189-196 | outside the repository: warn and exit; inside it, upload only when the parsed list has more than one entry, and then exactly its pairs |
| Sync.UpdateIgnoresDiffOutside | debugger/pipeline_runner/runner.py:189-196 | outside the repository the diff output makes no difference and nothing is copied |
| Sync.SingleFileNeverUploaded | debugger/pipeline_runner/runner.py:191-193 | a one-file change uploads nothing, whatever the session |
| Sync.NoChangesNoUpload | debugger/pipeline_runner/runner.py:191-193 | no changes upload nothing |
| Sync.ManyFilesUploadedInOrder | debugger/pipeline_runner/runner.py:191-193 | over a connected session, two or more files are each copied to `~/<directory>/<file>`, in diff order |
| Sync.SyncCommandShape | debugger/pipeline_runner/runner.py:89-96 | the sync command copies the flight's `input.json` to `<directory>/<folder>/<flight>.json` |
| Manager.GetDockerAuth | debugger/pipeline_runner/manager.py:16-23 | the token fetch is recorded; it yields credentials iff the decoded token has exactly one colon, and they rejoin to the token; otherwise `ValueError` |
| Manager.DockerAuthRoundTrip | debugger/pipeline_runner/manager.py:19-23 | colon-free credentials survive the token round trip |
| Manager.NewManager | debugger/pipeline_runner/manager.py:34-38 | the manager keeps the session credentials and logs in with the decoded token; the only event is the token fetch; it fails, raising `ValueError`, iff the token does not split in two |
| Manager.PullImage | debugger/pipeline_runner/manager.py:40-53 | the trace opens with the pulling message and a pull with the current credentials; a first success returns `None` without a refresh; after a failed first pull come the retry message and exactly one refresh, and then (when the refreshed token splits) the second pull, with the refreshed credentials; at most two pulls; `None` iff either pull succeeds; a second failure logs the registry's error last and returns the failure message |
| Manager.RetryPull | debugger/pipeline_runner/manager.py:44-51 | the retry message, then the refresh, then one pull with the refreshed credentials; raises iff the refreshed token does not split in two; `None` iff the second pull succeeds, otherwise the registry's error is logged last |
| Manager.SessionToken | debugger/pipeline_runner/manager.py:62 | the token is `''` iff it is absent or empty, otherwise the token itself |
| Manager.GetKwargs | debugger/pipeline_runner/manager.py:55-64 | exactly the image, shared-memory, environment and detach keys; the environment carries both keys and the token rule |
| Manager.RunKwargs | debugger/pipeline_runner/manager.py:67-68 | the command is added and every other argument is unchanged |
| Manager.RunManager | debugger/pipeline_runner/manager.py:66-73 | one container start with those arguments, then one record per log line, stripped of newlines |
| Manager.LifecycleCommandsDifferOnlyInAction | debugger/pipeline_runner/manager.py:86-122 | the stop, start and terminate commands differ only in the action word |
| Manager.CreateDefaults | debugger/pipeline_runner/manager.py:75-84 | creation defaults to `analytics_xs`, `release` and `high` |
| Manager.CreateEc2 | debugger/pipeline_runner/manager.py:75-84 | creation starts one container with the creation command, then logs each of its output lines, in order, stripped of newlines |
| Manager.StopEc2 | debugger/pipeline_runner/manager.py:86-96 | stopping starts one container with the stop command, then logs each of its output lines, in order, stripped of newlines |
| Manager.StartEc2 | debugger/pipeline_runner/manager.py:98-109 | starting starts one container with the start command, then logs each of its output lines, in order, stripped of newlines |
| Manager.TerminateEc2 | debugger/pipeline_runner/manager.py:111-122 | termination starts one container with the terminate command, then logs each of its output lines, in order, stripped of newlines |
| Cli.SyncPathConsistency | debugger/main.py:22-37 | after changing into the repository, the pipeline's descriptor path is the sync's destination iff the flight code is not absolute |
| Cli.PipelineStartsInRepository | debugger/main.py:29-37 | the pipeline command changes into the repository directory first |
| Cli.PipelineNamesDescriptor | debugger/main.py:27-33 | the descriptor argument follows the preamble directly |
| Cli.CommandsDistinct | debugger/main.py:22-37 | the sync and pipeline commands are never equal |
| Cli.GetRunner | debugger/main.py:11-13 | a runner exists only with an existing key path; with one, the outcome is construction from that path for user `ubuntu` over the provider's pages; a runner is built for the sole instance, and building sends no command and copies nothing |
| Cli.PipelineStep | debugger/main.py:29-37 | the pipeline command is the only command, sent iff its remote is reachable; the step completes iff it is sent, and its events and failure are those of running the command |
| Cli.SyncThenRun | debugger/main.py:22-39 | the sync's events come first; the pipeline command follows iff the sync ran, its stderr was empty after stripping, and the pipeline's remote is reachable; the call completes iff the sync ran and either its stderr was non-empty or the pipeline ran, and then the last record is the COMPLETE line; a failed sync is passed through unchanged; nothing is copied |
| Cli.SyncAndRun | debugger/main.py:22-39 | the same ordering, gating, completion and COMPLETE-last record for the flight's sync and pipeline commands |
| Cli.StartIfNeeded | debugger/main.py:18-19 | a runner not recorded as running gets exactly `start_ec2`; one recorded as running gets nothing; neither sends a command or copies a file |
| Cli.PushThen | debugger/main.py:21-39 | outside the repository: warn and exit; with two or more changes and no session: `AttributeError`; with at most one change: exactly the following step; in every case the commands are none or the following step's |
| Cli.StartThen | debugger/main.py:18-21 | for a runner not recorded as running, the events begin with `start_ec2`'s; after a successful start inside the repository with at most one change, they are the start's events followed by the next step |
| Cli.RunWorkflow | debugger/main.py:16-39 | `run` never copies a file; its commands are none or exactly those of sync-then-pipeline; for every runner it builds, its events begin with `start_ec2`'s; after a successful start inside the repository with at most one change, the outcome is the start's events followed by sync-then-pipeline; a failed runner build (key path unset or missing, no instance, several instances) stops `run` with exactly that failure |
| Cli.WorkflowStartsStoppedInstance | debugger/main.py:17-19 | `run` on a stopped instance makes the start call before anything else |
| Cli.WorkflowUploadNeedsSession | debugger/main.py:21 | with two or more changes, `run` raises `AttributeError` before any remote command |
| Cli.PipelineNeedsCleanSync | debugger/main.py:28-29 | in sync-then-pipeline command lists, the pipeline appears iff the sync ran cleanly and the pipeline could run |
| Cli.PipelineOnlyAfterCleanSync | debugger/main.py:22-29 | the pipeline command is sent only after a sync that ran and left stderr empty |
| Cli.Classify | debugger/main.py:66-79 | a missing command or creation argument is an index error; `run` with no flight code or more than three arguments is a `TypeError`; otherwise its arguments bind positionally to flight, pipeline and environment, the missing ones taking the defaults; runner and unknown names are kept |
| Cli.ClassifyRender | debugger/main.py:66-79 | classifying the argument vector for a command gives back that command |
| Cli.RunDefaults | debugger/main.py:16 | `run` with only a flight code uses `deepLearning` and `prod` |
| Cli.RunnerOperation | debugger/main.py:47-59 | each runner command runs the runner operation of the same name (`start_ec2`, `stop_ec2` or `kill_ec2`) on the built runner, so its lifecycle call is made iff the provider state allows it; failure to build the runner is passed through |
| Cli.Translate | debugger/main.py:81-87 | index and key errors become the invalid-command error carrying the argument vector; every other halt is unchanged |
| Cli.CreateOperation | debugger/main.py:42-44 | creation succeeds iff the registry token splits in two; then the events are exactly the token fetch, the creation container started with the session credentials and the default creation command, and its log lines, in order, stripped of newlines; a failed login is passed through |
| Cli.Cli | debugger/main.py:66-87 | no index or key error escapes; a missing command or creation argument is an invalid command; a `run` with no flight code or more than three arguments raises `TypeError`, and every reading error is raised as translated; `create_ec2`, the runner commands and `run` are exactly their operations with index and key errors translated; an unknown command only logs |
| Cli.MissingAddressIsInvalidCommand | debugger/main.py:81-84 | a runner command on an instance without a private address is reported as an invalid command |

## Left out

- SSH and SCP: the connection, key parsing, `exec_command` and the transport are not modelled. Each remote command's behaviour is an input: whether the key loads, the connection error, stdout, stderr, and how many exit-status polls answer "not ready".
- Cloud calls: the instance query, its pagination and the lifecycle calls are inputs. So are the frozen credentials and the registry token fetch. The token arrives already base64-decoded.
- Docker: the client, the pull and the container run are not modelled. A pull's success is an input. A container's log lines are an input list.
- `git diff`: the subprocess is left out. Its output is a string input.
- Text encoding: streams are character sequences. Byte-at-a-time UTF-8 decoding, which breaks on multi-byte characters in the code, is not modelled.
- Remote commands always finish. Every remote command finishes after a finite number of polls, so a command that never finishes is not modelled.
- Logging: there are no formats or levels beyond informational, warning, fatal and exception records. `sys.exit` is the `Exit` halt, not process termination.
- Environment and local user: `os.environ`, `os.path.exists`, `os.getcwd` and `getpass.getuser()` are inputs.
- Manager.PullImage: the code never calls this operation. It is modelled on its own and is not part of `create_ec2`.
- Cli.RunWorkflow: a failed start and the exit outside the repository are stated on `Cli.StartIfNeeded` and `Cli.PushThen`, not repeated on the workflow.
- Locator.GetInstance: the provider applies the query's filter itself, so the pages are taken as already filtered. `Locator.Selected` states the filter, but nothing applies it to the pages.
- Packaging: setup.py holds packaging metadata and is not modelled.
- Tests: the integration test checks files on the host machine and imports a function that does not exist, so no property comes from it.

=== FILE: cli.dfy ===
/**
 The command-line entry point: classification of the argument vector, the
 `run` workflow (locate, start, push changes, sync the input descriptor, run
 the pipeline only after a clean sync), and the lifecycle and creation
 commands.
 */
module Cli {
  import opened Effects
  import opened Text
  import opened Locator
  import opened Runner
  import Session
  import opened Sync
  import Manager

  /** Everything the program learns from its surroundings during one invocation. */
  datatype World = World(
    env: map<string, string>,          // process environment
    existing: set<string>,             // paths that exist on the local disk
    user: string,                      // the local user name
    pages: seq<seq<Instance>>,         // the provider's answer to the instance query
    lifecycleApi: ApiResult,           // the outcome of a start, stop or terminate call
    cwdBase: string,                   // base name of the working directory
    gitOutput: string,                 // output of the working-tree diff
    sync: Session.Remote,              // the remote side of the sync command
    pipeline: Session.Remote,          // the remote side of the pipeline command
    credentials: Manager.Credentials,  // the cloud session's frozen credentials
    registryToken: string,             // the decoded registry authorization token
    containerLogs: seq<string>)        // the lines the manager container prints

  const CompleteMessage := " --------------- COMPLETE --------------- "

  /** Python's `os.path.join` of two POSIX path components. */
  function PathJoin(a: string, b: string): string {
    if |b| > 0 && b[0] == '/' then b
    else if a == "" || a[|a| - 1] == '/' then a + b
    else a + "/" + b
  }

  predicate IsAbsolute(p: string) {
    |p| > 0 && p[0] == '/'
  }

  /** The descriptor path the pipeline is given, relative to the directory it runs in. */
  function InputJsonArg(flight: string): string {
    PathJoin(TmpStorage, flight) + ".json"
  }

  /** The first step of the pipeline command: change into the repository directory. */
  const ChangeDirectory := "cd " + Directory + "; "

  /** The start of the pipeline command, up to the descriptor argument. */
  function PipelinePreamble(pipeline: string): string {
    ChangeDirectory + ("export AWS_DEFAULT_REGION='us-east-1';" + "export PYTHONPATH=.;"
      + "python3 pipelines/" + pipeline + ".py ")
  }

  /** The descriptor argument of the pipeline command. */
  function InputJsonOption(flight: string): string {
    "--input_json " + InputJsonArg(flight) + " "
  }

  /** The options after the descriptor argument. */
  function PipelineOptions(agmriEnv: string): string {
    "--local_dir " + TmpStorage + " " + "--environment " + agmriEnv + " " + "--runtime local " + "--enable_caching "
  }

  /** The remote command that runs the pipeline on a flight's synced descriptor. */
  function PipelineCommand(flight: string, pipeline: string, agmriEnv: string): string {
    PipelinePreamble(pipeline) + InputJsonOption(flight) + PipelineOptions(agmriEnv)
  }

  /**
   The pipeline reads the file the sync wrote: resolving its descriptor
   argument against the directory it changes into gives the sync's
   destination, exactly when the flight code is not an absolute path (a
   leading `/` makes the join discard the staging folder).
   */
  lemma SyncPathConsistency(flight: string)
    ensures PathJoin(Directory, InputJsonArg(flight)) == SyncDestination(flight, TmpStorage) <==> !IsAbsolute(flight)
  {
    var dest := SyncDestination(flight, TmpStorage);
    if IsAbsolute(flight) {
      var arg := InputJsonArg(flight);
      assert arg == flight + ".json";
      assert arg[0] == '/';
      assert PathJoin(Directory, arg) == arg;
      assert dest[0] == Directory[0] == '[';
    } else {
      var arg := InputJsonArg(flight);
      assert arg == TmpStorage + "/" + flight + ".json";
      assert arg[0] == 't';
      assert PathJoin(Directory, arg) == Directory + "/" + arg;
      assert Directory + "/" + (TmpStorage + "/" + flight + ".json") == dest;
    }
  }

  /** The pipeline command changes into the repository directory before anything else. */
  lemma PipelineStartsInRepository(flight: string, pipeline: string, agmriEnv: string)
    ensures var cmd := PipelineCommand(flight, pipeline, agmriEnv);
      |ChangeDirectory| <= |cmd| && cmd[..|ChangeDirectory|] == ChangeDirectory
  {
    var pre := PipelinePreamble(pipeline);
    var env := pre[|ChangeDirectory|..];
    var rest := InputJsonOption(flight) + PipelineOptions(agmriEnv);
    assert pre == ChangeDirectory + env;
    assert PipelineCommand(flight, pipeline, agmriEnv) == ChangeDirectory + env + rest;
    Slices(ChangeDirectory, env, rest);
  }

  /** The descriptor argument follows the preamble directly. */
  lemma PipelineNamesDescriptor(flight: string, pipeline: string, agmriEnv: string)
    ensures var cmd := PipelineCommand(flight, pipeline, agmriEnv);
      var pre := PipelinePreamble(pipeline);
      var arg := InputJsonOption(flight);
      |pre| + |arg| <= |cmd| && cmd[|pre|..|pre| + |arg|] == arg
  {
    Slices(PipelinePreamble(pipeline), InputJsonOption(flight), PipelineOptions(agmriEnv));
  }

  /** The sync and pipeline commands can never be confused with each other. */
  lemma CommandsDistinct(flight: string, pipeline: string, agmriEnv: string)
    ensures SyncInputJson(flight, TmpStorage) != PipelineCommand(flight, pipeline, agmriEnv)
  {
    assert SyncInputJson(flight, TmpStorage)[0] == 'a';
    assert PipelineCommand(flight, pipeline, agmriEnv)[0] == 'c';
  }

  /** The runner every runner command builds: the key path, then the located instance. */
  function GetRunner(w: World): (o: Outcome<PipelineRunner>)
    ensures o.Done? ==> PemEnvKey in w.env && w.env[PemEnvKey] in w.existing
    ensures o.Done? ==> o.value.pemFile == w.env[PemEnvKey] && o.value.username == InstanceUsername
    ensures o.Done? ==> o.value.instanceState == None && !o.value.connected
    ensures o.Done? ==> forall p, j :: 0 <= p < |w.pages| && 0 <= j < |w.pages[p]| ==> w.pages[p][j] == o.value.instance
    ensures Commands(o.trace) == [] && Puts(o.trace) == []
    ensures !(PemEnvKey in w.env && w.env[PemEnvKey] in w.existing) ==> o.Stopped? && o.halt == Exit && |o.trace| == 1
    ensures PemEnvKey in w.env && w.env[PemEnvKey] in w.existing ==>
      o == NewRunner(w.env[PemEnvKey], InstanceUsername, w.pages, w.user)
    ensures o.Done? ==> o.trace == []
  {
    match GetAnalyticsPem(w.env, w.existing)
    case Stopped(t, h) =>
      assert Commands(t) == [] && Puts(t) == [];
      Stopped(t, h)
    case Done(t, pem) =>
      var o := NewRunner(pem, InstanceUsername, w.pages, w.user);
      assert Commands(o.trace) == [] && Puts(o.trace) == [] by {
        if o.trace != [] {
          assert o.trace == [Logged(MultipleMessage(w.user))];
        }
      }
      o
  }

  /** `run` only skips the start step when the runner's recorded state is `running`. */
  predicate NeedsStart(r: PipelineRunner) {
    r.instanceState != Some("running")
  }

  /** Run the pipeline command; nothing else happens in between. */
  function PipelineStep(r: PipelineRunner, cmd: string, remote: Session.Remote): (o: Outcome<()>)
    ensures Commands(o.trace) == if remote.keyLoads && remote.connectError.None? then [cmd] else []
    ensures Puts(o.trace) == []
    ensures o.Done? <==> remote.keyLoads && remote.connectError.None?
    ensures o.trace == Session.Run(r, cmd, remote).trace
    ensures o.Stopped? ==> o.halt == Session.Run(r, cmd, remote).halt
  {
    Session.RunCopiesNothing(r, cmd, remote);
    Unit(Session.Run(r, cmd, remote))
  }

  /**
   Sync with `syncCmd`; after a sync that wrote nothing to stderr, run
   `pipeCmd` with the connected runner; then log completion. A sync that did
   write to stderr is not an error: `run` still completes.
   */
  function SyncThenRun(r: PipelineRunner, syncCmd: string, pipeCmd: string, sync: Session.Remote, pipeline: Session.Remote): (o: Outcome<()>)
    ensures var syncRuns := sync.keyLoads && sync.connectError.None?;
      var pipeRuns := pipeline.keyLoads && pipeline.connectError.None?;
      Commands(o.trace) ==
        if !syncRuns then []
        else if !AllOf(sync.stderr, '\n') then [syncCmd]
        else if pipeRuns then [syncCmd, pipeCmd]
        else [syncCmd]
    ensures Puts(o.trace) == []
    ensures o.Done? <==>
      (sync.keyLoads && sync.connectError.None? && (!AllOf(sync.stderr, '\n') || (pipeline.keyLoads && pipeline.connectError.None?)))
    ensures var s := Session.Run(r, syncCmd, sync); |s.trace| <= |o.trace| && o.trace[..|s.trace|] == s.trace
    ensures o.Done? ==> EndsWith(o.trace, Info(CompleteMessage))
    ensures var s := Session.Run(r, syncCmd, sync); s.Stopped? ==> o == Stopped(s.trace, s.halt)
  {
    var x := Session.Run(r, syncCmd, sync);
    Session.RunCopiesNothing(r, syncCmd, sync);
    var clean := AllOf(sync.stderr, '\n');
    var rest := if x.Done? && clean then PipelineStep(x.value.0, pipeCmd, pipeline) else Done([], ());
    var body := AndThen(Unit(x), rest);
    var o := ThenRecord(body, Info(CompleteMessage));
    PrefixOfPrefix(x.trace, body.trace, o.trace);
    assert [syncCmd] + [] == [syncCmd] && [syncCmd] + [pipeCmd] == [syncCmd, pipeCmd];
    o
  }

  /** The part of `run` after the changes are pushed: sync the descriptor, then the pipeline. */
  function SyncAndRun(r: PipelineRunner, flight: string, pipeline: string, agmriEnv: string, w: World): (o: Outcome<()>)
    ensures var syncCmd := SyncInputJson(flight, TmpStorage);
      var pipeCmd := PipelineCommand(flight, pipeline, agmriEnv);
      var syncRuns := w.sync.keyLoads && w.sync.connectError.None?;
      var pipeRuns := w.pipeline.keyLoads && w.pipeline.connectError.None?;
      Commands(o.trace) ==
        if !syncRuns then []
        else if !AllOf(w.sync.stderr, '\n') then [syncCmd]
        else if pipeRuns then [syncCmd, pipeCmd]
        else [syncCmd]
    ensures Puts(o.trace) == []
    ensures o.Done? <==>
      (w.sync.keyLoads && w.sync.connectError.None? && (!AllOf(w.sync.stderr, '\n') || (w.pipeline.keyLoads && w.pipeline.connectError.None?)))
    ensures var s := Session.Run(r, SyncInputJson(flight, TmpStorage), w.sync);
      |s.trace| <= |o.trace| && o.trace[..|s.trace|] == s.trace
    ensures o.Done? ==> EndsWith(o.trace, Info(CompleteMessage))
    ensures var s := Session.Run(r, SyncInputJson(flight, TmpStorage), w.sync); s.Stopped? ==> o == Stopped(s.trace, s.halt)
  {
    var syncCmd := SyncInputJson(flight, TmpStorage);
    var pipeCmd := PipelineCommand(flight, pipeline, agmriEnv);
    SyncThenRun(r, syncCmd, pipeCmd, w.sync, w.pipeline)
  }

  /** Start the instance unless the runner records it as running. */
  function StartIfNeeded(r: PipelineRunner, api: ApiResult): (o: Outcome<()>)
    ensures Commands(o.trace) == [] && Puts(o.trace) == []
    ensures NeedsStart(r) && r.instance.state == "stopped" ==> |o.trace| > 0 && o.trace[0] == StartCall(r.instanceId)
    ensures o.Done? <==> !NeedsStart(r) || r.instance.state != "stopped" || api.ApiOk?
    ensures NeedsStart(r) ==> o == StartEc2(r, api)
    ensures !NeedsStart(r) ==> o == Done([], ())
  {
    var o := if NeedsStart(r) then StartEc2(r, api) else Done([], ());
    assert Puts(o.trace) == [] && Commands(o.trace) == [] by {
      if o.trace != [] {
        assert o.trace[1..] == [] || o.trace[1..] == [o.trace[1]];
        assert !o.trace[0].Put? && !o.trace[0].RemoteCmd?;
      }
    }
    o
  }

  /**
   The part of `run` after the instance is started: push the working-tree
   changes, then go on with `rest` (syncing the descriptor and running the
   pipeline).
   */
  function PushThen(r: PipelineRunner, w: World, rest: Outcome<()>): (o: Outcome<()>)
    ensures !r.connected && Puts(rest.trace) == [] ==> Puts(o.trace) == []
    ensures Commands(o.trace) == [] || Commands(o.trace) == Commands(rest.trace)
    ensures w.cwdBase != Directory ==> o == Stopped([Warn(NavigateWarning)], Exit)
    ensures w.cwdBase == Directory && |GitDiff(w.gitOutput)| > 1 && !r.connected ==> o == Stopped([], Raise(AttributeError))
    ensures w.cwdBase == Directory && |GitDiff(w.gitOutput)| <= 1 ==> o == rest
  {
    AndThen(Update(r, w.cwdBase, w.gitOutput), rest)
  }

  /**
   The part of `run` once the runner exists: start the instance unless the
   runner records it as running, push the changes, then go on with `rest`.
   */
  function StartThen(r: PipelineRunner, w: World, rest: Outcome<()>): (o: Outcome<()>)
    ensures !r.connected && Puts(rest.trace) == [] ==> Puts(o.trace) == []
    ensures Commands(o.trace) == [] || Commands(o.trace) == Commands(rest.trace)
    ensures NeedsStart(r) ==>
      var start := StartEc2(r, w.lifecycleApi).trace;
      |start| <= |o.trace| && o.trace[..|start|] == start
    ensures (NeedsStart(r) && StartEc2(r, w.lifecycleApi).Done? && w.cwdBase == Directory && |GitDiff(w.gitOutput)| <= 1) ==>
      o == Prepend(StartEc2(r, w.lifecycleApi).trace, rest)
  {
    AndThen(StartIfNeeded(r, w.lifecycleApi), PushThen(r, w, rest))
  }

  /**
   The `run` command: build the runner, start the instance unless the runner
   records it as running, push the working-tree changes, then sync and run.
   */
  function RunWorkflow(flight: string, pipeline: string, agmriEnv: string, w: World): (o: Outcome<()>)
    ensures Puts(o.trace) == []
    ensures Commands(o.trace) == [] ||
      (GetRunner(w).Done? && Commands(o.trace) == Commands(SyncAndRun(GetRunner(w).value, flight, pipeline, agmriEnv, w).trace))
    ensures GetRunner(w).Done? ==>
      var start := StartEc2(GetRunner(w).value, w.lifecycleApi).trace;
      |start| <= |o.trace| && o.trace[..|start|] == start
    ensures (GetRunner(w).Done? && StartEc2(GetRunner(w).value, w.lifecycleApi).Done? &&
             w.cwdBase == Directory && |GitDiff(w.gitOutput)| <= 1) ==>
      o == Prepend(StartEc2(GetRunner(w).value, w.lifecycleApi).trace, SyncAndRun(GetRunner(w).value, flight, pipeline, agmriEnv, w))
    ensures GetRunner(w).Stopped? ==> o == Stopped(GetRunner(w).trace, GetRunner(w).halt)
  {
    match GetRunner(w)
    case Stopped(t, h) => Stopped(t, h)
    case Done(t, r) =>
      assert NeedsStart(r) && !r.connected && t == [];
      StartThen(r, w, SyncAndRun(r, flight, pipeline, agmriEnv, w))
  }

  /** A `run` that finds the instance stopped starts it before anything else happens. */
  lemma WorkflowStartsStoppedInstance(flight: string, pipeline: string, agmriEnv: string, w: World)
    requires GetRunner(w).Done? && GetRunner(w).value.instance.state == "stopped"
    ensures var o := RunWorkflow(flight, pipeline, agmriEnv, w);
      |o.trace| > 0 && o.trace[0] == StartCall(GetRunner(w).value.instanceId)
  {
    var r := GetRunner(w).value;
    assert GetRunner(w).trace == [];
    assert NeedsStart(r);
  }

  /**
   Inside the repository directory with two or more changed files, `run`
   stops with an attribute error before any remote command: the changes are
   pushed before any command has opened a session, so there is no transport.
   */
  lemma WorkflowUploadNeedsSession(flight: string, pipeline: string, agmriEnv: string, w: World)
    requires GetRunner(w).Done?
    requires var r := GetRunner(w).value; r.instance.state != "stopped" || w.lifecycleApi.ApiOk?
    requires w.cwdBase == Directory && |GitDiff(w.gitOutput)| > 1
    ensures var o := RunWorkflow(flight, pipeline, agmriEnv, w);
      o.Stopped? && o.halt == Raise(AttributeError) && Commands(o.trace) == [] && Puts(o.trace) == []
  {
    var r := GetRunner(w).value;
    assert NeedsStart(r) && !r.connected;
    var rest := SyncAndRun(r, flight, pipeline, agmriEnv, w);
    StartedUploadNeedsSession(r, w, rest);
    assert RunWorkflow(flight, pipeline, agmriEnv, w) == StartThen(r, w, rest);
  }

  /** The same for a runner that has not connected, once it has been started. */
  lemma StartedUploadNeedsSession(r: PipelineRunner, w: World, rest: Outcome<()>)
    requires !r.connected && (r.instance.state != "stopped" || w.lifecycleApi.ApiOk?)
    requires w.cwdBase == Directory && |GitDiff(w.gitOutput)| > 1
    ensures var o := StartThen(r, w, rest);
      o.Stopped? && o.halt == Raise(AttributeError) && Commands(o.trace) == [] && Puts(o.trace) == []
  {
    var start := StartIfNeeded(r, w.lifecycleApi);
    assert start.Done?;
    assert PushThen(r, w, rest) == Stopped([], Raise(AttributeError));
  }

  /** In the command list of a sync followed by a pipeline, the pipeline appears only after a clean sync. */
  lemma PipelineNeedsCleanSync(cmds: seq<string>, syncCmd: string, pipeCmd: string, syncRuns: bool, clean: bool, pipeRuns: bool)
    requires syncCmd != pipeCmd
    requires cmds == if !syncRuns then [] else if !clean then [syncCmd] else if pipeRuns then [syncCmd, pipeCmd] else [syncCmd]
    ensures pipeCmd in cmds <==> syncRuns && clean && pipeRuns
  {
  }

  /** The pipeline command is sent only after a sync that ran and wrote nothing to stderr. */
  lemma PipelineOnlyAfterCleanSync(flight: string, pipeline: string, agmriEnv: string, w: World)
    ensures PipelineCommand(flight, pipeline, agmriEnv) in Commands(RunWorkflow(flight, pipeline, agmriEnv, w).trace) ==>
      w.sync.keyLoads && w.sync.connectError.None? && AllOf(w.sync.stderr, '\n')
  {
    var pipeCmd := PipelineCommand(flight, pipeline, agmriEnv);
    var cmds := Commands(RunWorkflow(flight, pipeline, agmriEnv, w).trace);
    if pipeCmd in cmds {
      var rest := SyncAndRun(GetRunner(w).value, flight, pipeline, agmriEnv, w);
      assert pipeCmd in Commands(rest.trace);
      CommandsDistinct(flight, pipeline, agmriEnv);
      PipelineNeedsCleanSync(Commands(rest.trace), SyncInputJson(flight, TmpStorage), pipeCmd,
        w.sync.keyLoads && w.sync.connectError.None?, AllOf(w.sync.stderr, '\n'),
        w.pipeline.keyLoads && w.pipeline.connectError.None?);
    }
  }

  /** What the command line asks for. */
  datatype Command =
    | CreateInstance(kind: string, env: string)
    | RunnerCommand(name: string)
    | RunPipeline(flight: string, pipeline: string, agmriEnv: string)
    | Unknown(name: string)

  /** The result of reading the argument vector: a command, or the exception reading it raises. */
  datatype Parse = Parsed(cmd: Command) | ParseError(exc: Exc)

  const ManagerCommands: seq<string> := ["create_ec2"]
  const RunnerCommands: seq<string> := ["kill_ec2", "stop_ec2", "start_ec2"]
  const DefaultPipeline := "deepLearning"
  const DefaultEnvironment := "prod"

  /**
   Read the argument vector (`argv[0]` is the program name): a missing command
   or a missing creation argument is an index error; `run` with no flight or
   with more than three arguments does not match the workflow's parameters.
   */
  function Classify(argv: seq<string>): (p: Parse)
    ensures |argv| < 2 ==> p == ParseError(IndexError)
    ensures p.ParseError? ==> p.exc in {IndexError, TypeError}
    ensures p.Parsed? ==> |argv| >= 2
    ensures p.Parsed? && p.cmd.CreateInstance? ==>
      argv[1] in ManagerCommands && |argv| >= 4 && p.cmd == CreateInstance(argv[2], argv[3])
    ensures p.Parsed? && p.cmd.RunnerCommand? ==> argv[1] in RunnerCommands && p.cmd.name == argv[1]
    ensures p.Parsed? && p.cmd.RunPipeline? ==> argv[1] == "run" && 3 <= |argv| <= 5 && p.cmd.flight == argv[2]
    ensures p.Parsed? && p.cmd.Unknown? ==>
      p.cmd.name == argv[1] && argv[1] !in ManagerCommands && argv[1] !in RunnerCommands && argv[1] != "run"
    ensures |argv| >= 2 && argv[1] == "run" ==> (p.Parsed? <==> 3 <= |argv| <= 5)
    ensures |argv| >= 2 && argv[1] == "run" && !(3 <= |argv| <= 5) ==> p == ParseError(TypeError)
    ensures p.Parsed? && p.cmd.RunPipeline? ==>
      && p.cmd.pipeline == (if |argv| > 3 then argv[3] else DefaultPipeline)
      && p.cmd.agmriEnv == (if |argv| > 4 then argv[4] else DefaultEnvironment)
  {
    if |argv| < 2 then ParseError(IndexError)
    else
      var cmd := argv[1];
      if cmd in ManagerCommands then
        if |argv| < 4 then ParseError(IndexError) else Parsed(CreateInstance(argv[2], argv[3]))
      else if cmd in RunnerCommands then Parsed(RunnerCommand(cmd))
      else if cmd == "run" then
        var args := argv[2..];
        if |args| == 0 || |args| > 3 then ParseError(TypeError)
        else
          Parsed(RunPipeline(args[0],
            if |args| > 1 then args[1] else DefaultPipeline,
            if |args| > 2 then args[2] else DefaultEnvironment))
      else Parsed(Unknown(cmd))
  }

  /** The argument vector that asks for `cmd`, with every optional argument spelled out. */
  function Render(program: string, cmd: Command): seq<string> {
    match cmd
    case CreateInstance(kind, env) => [program, "create_ec2", kind, env]
    case RunnerCommand(name) => [program, name]
    case RunPipeline(flight, pipeline, agmriEnv) => [program, "run", flight, pipeline, agmriEnv]
    case Unknown(name) => [program, name]
  }

  /** The commands the program can be asked for: runner commands by their names, unknown names outside them. */
  predicate Expressible(cmd: Command) {
    match cmd
    case RunnerCommand(name) => name in RunnerCommands
    case Unknown(name) => name !in ManagerCommands && name !in RunnerCommands && name != "run"
    case _ => true
  }

  /** Reading back a rendered command gives the command. */
  lemma ClassifyRender(program: string, cmd: Command)
    requires Expressible(cmd)
    ensures Classify(Render(program, cmd)) == Parsed(cmd)
  {
    var argv := Render(program, cmd);
    if cmd.RunPipeline? {
      assert argv[2..] == [cmd.flight, cmd.pipeline, cmd.agmriEnv];
    }
  }

  /** `run` with only a flight code uses the default pipeline and environment. */
  lemma RunDefaults(program: string, flight: string)
    ensures Classify([program, "run", flight]) == Parsed(RunPipeline(flight, "deepLearning", "prod"))
  {
    assert [program, "run", flight][2..] == [flight];
  }

  /** A runner command: build the runner, then start, stop or terminate. */
  function RunnerOperation(name: string, w: World): (o: Outcome<()>)
    requires name in RunnerCommands
    ensures GetRunner(w).Stopped? ==> o.Stopped? && o.trace == GetRunner(w).trace && o.halt == GetRunner(w).halt
    ensures GetRunner(w).Done? ==>
      var r := GetRunner(w).value;
      && (name == "start_ec2" ==> (StartCall(r.instanceId) in o.trace <==> r.instance.state == "stopped"))
      && (name == "stop_ec2" ==> (StopCall(r.instanceId) in o.trace <==> r.instance.state in {"running", "pending"}))
      && (name == "kill_ec2" ==> (TerminateCall(r.instanceId) in o.trace <==> r.instance.state == "stopped"))
    ensures GetRunner(w).Done? ==>
      var r := GetRunner(w).value;
      o == if name == "start_ec2" then StartEc2(r, w.lifecycleApi)
           else if name == "stop_ec2" then StopEc2(r, w.lifecycleApi)
           else KillEc2(r, w.lifecycleApi)
  {
    match GetRunner(w)
    case Stopped(t, h) => Stopped(t, h)
    case Done(t, r) =>
      Prepend(t,
        if name == "start_ec2" then StartEc2(r, w.lifecycleApi)
        else if name == "stop_ec2" then StopEc2(r, w.lifecycleApi)
        else KillEc2(r, w.lifecycleApi))
  }

  /** The command line's translation of an index or key error into its "invalid command" error. */
  function Translate(h: Halt, argv: seq<string>): (h': Halt)
    ensures h'.Raise? ==> h'.exc != IndexError && h'.exc != KeyError
    ensures h.Raise? && (h.exc == IndexError || h.exc == KeyError) ==> h' == Raise(LookupError(argv))
    ensures !(h.Raise? && (h.exc == IndexError || h.exc == KeyError)) ==> h' == h
  {
    if h.Raise? && (h.exc == IndexError || h.exc == KeyError) then Raise(LookupError(argv)) else h
  }

  function Translated<T>(o: Outcome<T>, argv: seq<string>): (o': Outcome<T>)
    ensures o'.trace == o.trace && o'.Done? == o.Done?
    ensures o'.Stopped? ==> o'.halt == Translate(o.halt, argv)
  {
    match o
    case Done(t, v) => Done(t, v)
    case Stopped(t, h) => Stopped(t, Translate(h, argv))
  }

  /** The `create_ec2` command: build the manager from the registry token, then create the instance. */
  function CreateOperation(kind: string, env: string, w: World): (o: Outcome<()>)
    ensures o.Done? <==> Count(w.registryToken, ':') == 1
    ensures o.Stopped? ==>
      var m := Manager.NewManager(w.credentials, w.registryToken);
      o.trace == m.trace && o.halt == m.halt
    ensures o.Done? ==> ContainerRun(Manager.RunKwargs(w.credentials, Manager.CreateCommand(w.user, kind, env))) in o.trace
    ensures o.Done? ==>
      && |o.trace| == 2 + |w.containerLogs|
      && o.trace[0] == FetchAuthToken
      && o.trace[1] == ContainerRun(Manager.RunKwargs(w.credentials, Manager.CreateCommand(w.user, kind, env)))
      && forall i :: 0 <= i < |w.containerLogs| ==> o.trace[2 + i] == Info(Strip(w.containerLogs[i], '\n'))
  {
    match Manager.NewManager(w.credentials, w.registryToken)
    case Stopped(t, h) => Stopped(t, h)
    case Done(t, m) =>
      var c := Manager.CreateEc2(m, w.user, w.containerLogs, kind, env);
      assert (t + c.trace)[|t|] == c.trace[0];
      Prepend(t, c)
  }

  const UnknownPrefix := "No such command "
  const UnknownSuffix := " defined in debugger"

  /**
   The program's entry point: dispatch the command, and report an index or
   key error raised anywhere inside as an invalid command line.
   */
  function Cli(argv: seq<string>, w: World): (o: Outcome<()>)
    ensures o.Stopped? && o.halt.Raise? ==> o.halt.exc != IndexError && o.halt.exc != KeyError
    ensures |argv| < 2 ==> o == Stopped([], Raise(LookupError(argv)))
    ensures Classify(argv).ParseError? ==> o == Stopped([], Translate(Raise(Classify(argv).exc), argv))
    ensures |argv| >= 2 && argv[1] == "run" && !(3 <= |argv| <= 5) ==> o == Stopped([], Raise(TypeError))
    ensures |argv| >= 2 && argv[1] in ManagerCommands && |argv| < 4 ==> o == Stopped([], Raise(LookupError(argv)))
    ensures Classify(argv).Parsed? && Classify(argv).cmd.Unknown? ==>
      o == Done([Info(UnknownPrefix + argv[1] + UnknownSuffix)], ())
    ensures Classify(argv).Parsed? && Classify(argv).cmd.CreateInstance? ==>
      o == Translated(CreateOperation(argv[2], argv[3], w), argv)
    ensures Classify(argv).Parsed? && Classify(argv).cmd.RunnerCommand? ==>
      o == Translated(RunnerOperation(argv[1], w), argv)
    ensures Classify(argv).Parsed? && Classify(argv).cmd.RunPipeline? ==>
      var c := Classify(argv).cmd;
      o == Translated(RunWorkflow(c.flight, c.pipeline, c.agmriEnv, w), argv)
  {
    match Classify(argv)
    case ParseError(e) => Stopped([], Translate(Raise(e), argv))
    case Parsed(cmd) =>
      match cmd
      case CreateInstance(kind, env) => Translated(CreateOperation(kind, env, w), argv)
      case RunnerCommand(name) => Translated(RunnerOperation(name, w), argv)
      case RunPipeline(flight, pipeline, agmriEnv) => Translated(RunWorkflow(flight, pipeline, agmriEnv, w), argv)
      case Unknown(name) => Done([Info(UnknownPrefix + name + UnknownSuffix)], ())
  }

  /** A located instance without a private address is reported as an invalid command line. */
  lemma MissingAddressIsInvalidCommand(w: World, name: string)
    requires name in RunnerCommands
    requires PemEnvKey in w.env && w.env[PemEnvKey] in w.existing
    requires Total(w.pages) == 1
    requires forall p, j :: 0 <= p < |w.pages| && 0 <= j < |w.pages[p]| ==> |w.pages[p][j].privateIps| == 0
    ensures Cli(["debugger", name], w) == Stopped([], Raise(LookupError(["debugger", name])))
  {
    ClassifyRender("debugger", RunnerCommand(name));
  }
}

=== FILE: effects.dfy ===
/**
 Shared vocabulary of the debugger model: optional values, the Python exceptions
 that can leave the modelled code, the ways a step can stop the program, and the
 externally visible events (log records, cloud calls, remote commands, file
 copies, container operations) that every operation appends to its trace.
 */
module Effects {

  datatype Option<T> = None | Some(value: T)

  /** Exceptions that escape the modelled functions. */
  datatype Exc =
    | ClientError(message: string)    // a failing cloud lifecycle call, re-raised after logging
    | AttributeError                  // an attribute read on `None`
    | IndexError
    | KeyError
    | TypeError                       // a wrong number of arguments, or unpacking `None`
    | ValueError                      // unpacking a split of the wrong length
    | LookupError(argv: seq<string>)  // the command line's "invalid command" error

  /** How a step ends the program early: `sys.exit()` or a raised exception. */
  datatype Halt = Exit | Raise(exc: Exc)

  /** A value stored in the keyword arguments handed to the container runtime. */
  datatype KwValue = Str(s: string) | Flag(b: bool) | Env(vars: map<string, string>)

  /** Everything the program does that can be observed from outside. */
  datatype Event =
    | Info(msg: string)
    | Warn(msg: string)
    | Fatal(msg: string)
    | Logged(msg: string)                    // logger.exception
    | StartCall(id: string)
    | StopCall(id: string)
    | TerminateCall(id: string)
    | Connect(host: string, user: string)
    | RemoteCmd(cmd: string)
    | Put(src: string, dst: string)
    | FetchAuthToken
    | Pull(image: string, username: string, password: string)
    | ContainerRun(kwargs: map<string, KwValue>)

  /** The result of one step: the events it produced and either a value or a halt. */
  datatype Outcome<T> = Done(trace: seq<Event>, value: T) | Stopped(trace: seq<Event>, halt: Halt)

  /** The same outcome with `pre` emitted before it. */
  function Prepend<T>(pre: seq<Event>, o: Outcome<T>): (r: Outcome<T>)
    ensures r.trace == pre + o.trace
    ensures r.Done? == o.Done?
    ensures r.Done? ==> r.value == o.value
    ensures r.Stopped? ==> r.halt == o.halt
    ensures pre == [] ==> r == o
  {
    assert [] + o.trace == o.trace;
    match o
    case Done(t, v) => Done(pre + t, v)
    case Stopped(t, h) => Stopped(pre + t, h)
  }

  /** Python's `str()` of an optional string attribute. */
  function Show(x: Option<string>): string {
    match x
    case None => "None"
    case Some(s) => s
  }

  /** The commands sent to the remote shell, in order. */
  function Commands(trace: seq<Event>): (cmds: seq<string>)
    ensures |cmds| <= |trace|
  {
    if |trace| == 0 then []
    else (if trace[0].RemoteCmd? then [trace[0].cmd] else []) + Commands(trace[1..])
  }

  /** The file copies made, in order. */
  function Puts(trace: seq<Event>): (copies: seq<(string, string)>)
    ensures |copies| <= |trace|
  {
    if |trace| == 0 then []
    else (if trace[0].Put? then [(trace[0].src, trace[0].dst)] else []) + Puts(trace[1..])
  }

  /** True when the trace logs something at fatal severity. */
  predicate LogsFatal(trace: seq<Event>) {
    exists i :: 0 <= i < |trace| && trace[i].Fatal?
  }

  lemma FatalAppend(a: seq<Event>, b: seq<Event>)
    ensures LogsFatal(a + b) <==> LogsFatal(a) || LogsFatal(b)
  {
    if LogsFatal(a) {
      var i :| 0 <= i < |a| && a[i].Fatal?;
      assert (a + b)[i] == a[i];
    }
    if LogsFatal(b) {
      var i :| 0 <= i < |b| && b[i].Fatal?;
      assert (a + b)[|a| + i] == b[i];
    }
  }

  lemma {:induction false} CommandsAppend(a: seq<Event>, b: seq<Event>)
    ensures Commands(a + b) == Commands(a) + Commands(b)
  {
    if |a| == 0 {
      assert a + b == b;
    } else {
      var h := if a[0].RemoteCmd? then [a[0].cmd] else [];
      assert (a + b)[0] == a[0];
      assert (a + b)[1..] == a[1..] + b;
      CommandsAppend(a[1..], b);
      assert Commands(a + b) == h + Commands(a[1..] + b);
      assert Commands(a) == h + Commands(a[1..]);
      assert h + (Commands(a[1..]) + Commands(b)) == (h + Commands(a[1..])) + Commands(b);
    }
  }

  /** A command is in the projection iff the trace sends it. */
  lemma {:induction false} CommandsMembership(trace: seq<Event>, c: string)
    ensures c in Commands(trace) <==> RemoteCmd(c) in trace
  {
    if |trace| > 0 {
      CommandsMembership(trace[1..], c);
      assert trace == [trace[0]] + trace[1..];
    }
  }

  /** A copy is in the projection iff the trace makes it. */
  lemma {:induction false} PutsMembership(trace: seq<Event>, src: string, dst: string)
    ensures (src, dst) in Puts(trace) <==> Put(src, dst) in trace
  {
    if |trace| > 0 {
      PutsMembership(trace[1..], src, dst);
      assert trace == [trace[0]] + trace[1..];
    }
  }

  lemma {:induction false} NoPuts(trace: seq<Event>)
    requires forall i :: 0 <= i < |trace| ==> !trace[i].Put?
    ensures Puts(trace) == []
  {
    if |trace| > 0 {
      NoPuts(trace[1..]);
    }
  }

  lemma {:induction false} PutsAppend(a: seq<Event>, b: seq<Event>)
    ensures Puts(a + b) == Puts(a) + Puts(b)
  {
    if |a| == 0 {
      assert a + b == b;
    } else {
      var h := if a[0].Put? then [(a[0].src, a[0].dst)] else [];
      assert (a + b)[0] == a[0];
      assert (a + b)[1..] == a[1..] + b;
      PutsAppend(a[1..], b);
      assert Puts(a + b) == h + Puts(a[1..] + b);
      assert Puts(a) == h + Puts(a[1..]);
      assert h + (Puts(a[1..]) + Puts(b)) == (h + Puts(a[1..])) + Puts(b);
    }
  }

  /** The last event of `trace` is `e`. */
  predicate EndsWith(trace: seq<Event>, e: Event) {
    |trace| > 0 && trace[|trace| - 1] == e
  }

  /** A prefix of a prefix is a prefix. */
  lemma PrefixOfPrefix(a: seq<Event>, b: seq<Event>, c: seq<Event>)
    requires |a| <= |b| <= |c| && b[..|a|] == a && c[..|b|] == b
    ensures c[..|a|] == a
  {
    assert c[..|a|] == c[..|b|][..|a|];
  }

  /** The same outcome with its value dropped. */
  function Unit<T>(o: Outcome<T>): (u: Outcome<()>)
    ensures u.trace == o.trace && u.Done? == o.Done?
    ensures o.Stopped? ==> u.halt == o.halt
  {
    match o
    case Done(t, _) => Done(t, ())
    case Stopped(t, h) => Stopped(t, h)
  }

  /** A completed outcome followed by the log record `e`; a stopped one unchanged. */
  function ThenRecord(o: Outcome<()>, e: Event): (f: Outcome<()>)
    requires !e.RemoteCmd? && !e.Put?
    ensures f.Done? == o.Done?
    ensures o.Stopped? ==> f == o
    ensures Commands(f.trace) == Commands(o.trace) && Puts(f.trace) == Puts(o.trace)
    ensures |o.trace| <= |f.trace| && f.trace[..|o.trace|] == o.trace
    ensures f.Done? ==> |f.trace| == |o.trace| + 1 && EndsWith(f.trace, e)
  {
    if o.Stopped? then o
    else
      CommandsAppend(o.trace, [e]);
      PutsAppend(o.trace, [e]);
      assert Commands([e]) == [] && Puts([e]) == [];
      assert (o.trace + [e])[..|o.trace|] == o.trace;
      Done(o.trace + [e], ())
  }

  /** Run `rest` after a step that yields nothing: its events follow the step's, unless the step stopped. */
  function AndThen<T>(step: Outcome<()>, rest: Outcome<T>): (o: Outcome<T>)
    ensures step.Stopped? ==> o == Stopped(step.trace, step.halt)
    ensures step.Done? ==> o == Prepend(step.trace, rest)
    ensures |step.trace| <= |o.trace| && o.trace[..|step.trace|] == step.trace
    ensures Commands(o.trace) == Commands(step.trace) + if step.Done? then Commands(rest.trace) else []
    ensures Puts(o.trace) == Puts(step.trace) + if step.Done? then Puts(rest.trace) else []
  {
    match step
    case Stopped(t, h) =>
      assert Commands(t) + [] == Commands(t) && Puts(t) + [] == Puts(t);
      Stopped(t, h)
    case Done(t, _) =>
      CommandsAppend(t, rest.trace);
      PutsAppend(t, rest.trace);
      assert (t + rest.trace)[..|t|] == t;
      Prepend(t, rest)
  }
}

=== FILE: locator.dfy ===
/**
 The instance locator: the tag-and-state filter sent to the cloud provider and
 the count-based choice among the instances it returns, page by page.
 */
module Locator {
  import opened Effects

  /** The account the remote shell logs in as. */
  const InstanceUsername := "ubuntu"

  /** Every lifecycle state the provider reports. */
  const ProviderStates: set<string> := {"pending", "running", "shutting-down", "stopping", "stopped", "terminated"}

  /** The states the instance query accepts, in the order the query lists them. */
  const FilterStates: seq<string> := ["pending", "running", "shutting-down", "stopping", "stopped"]

  datatype Tag = Tag(key: string, value: string)

  /** What the provider reports about one instance. */
  datatype Instance = Instance(id: string, state: string, privateIps: seq<string>, tags: seq<Tag>)

  /** One clause of the provider query: the named attribute must take one of the values. */
  datatype Filter = Filter(name: string, values: seq<string>)

  /** The query sent for the local user. */
  function Filters(user: string): seq<Filter> {
    [Filter("tag:UserCreated", [user]), Filter("instance-state-name", FilterStates)]
  }

  /** Does the instance satisfy one clause of the query? */
  predicate Satisfies(inst: Instance, f: Filter) {
    if f.name == "instance-state-name" then inst.state in f.values
    else if |f.name| >= 4 && f.name[..4] == "tag:" then
      exists i :: 0 <= i < |inst.tags| && inst.tags[i].key == f.name[4..] && inst.tags[i].value in f.values
    else false
  }

  /** Does the instance satisfy every clause of the query for `user`? */
  predicate Selected(inst: Instance, user: string) {
    forall j :: 0 <= j < |Filters(user)| ==> Satisfies(inst, Filters(user)[j])
  }

  /** The query accepts exactly the provider states other than `terminated`. */
  lemma FilterExcludesTerminated()
    ensures (set s | s in FilterStates) == ProviderStates - {"terminated"}
    ensures "terminated" !in FilterStates
  {
  }

  /** An instance is selected iff it carries the user's tag and is not terminated. */
  lemma SelectedIff(inst: Instance, user: string)
    requires inst.state in ProviderStates
    ensures Selected(inst, user) <==>
      inst.state != "terminated" &&
      exists i :: 0 <= i < |inst.tags| && inst.tags[i] == Tag("UserCreated", user)
  {
    var fs := Filters(user);
    assert fs[0].name[..4] == "tag:" && fs[0].name[4..] == "UserCreated";
    if Selected(inst, user) {
      assert Satisfies(inst, fs[0]) && Satisfies(inst, fs[1]);
      var i :| 0 <= i < |inst.tags| && inst.tags[i].key == "UserCreated" && inst.tags[i].value in [user];
      assert inst.tags[i] == Tag("UserCreated", user);
    }
    if inst.state != "terminated" && exists i :: 0 <= i < |inst.tags| && inst.tags[i] == Tag("UserCreated", user) {
      var i :| 0 <= i < |inst.tags| && inst.tags[i] == Tag("UserCreated", user);
      assert Satisfies(inst, fs[0]);
      assert Satisfies(inst, fs[1]);
    }
  }

  /** All pages of a paginated listing, concatenated in order. */
  function Flatten(pages: seq<seq<Instance>>): (all: seq<Instance>)
    ensures forall p, j :: 0 <= p < |pages| && 0 <= j < |pages[p]| ==> pages[p][j] in all
    ensures forall x :: x in all ==> exists p :: 0 <= p < |pages| && x in pages[p]
  {
    if |pages| == 0 then [] else pages[0] + Flatten(pages[1..])
  }

  /** The number of instances across all pages. */
  function Total(pages: seq<seq<Instance>>): nat {
    if |pages| == 0 then 0 else |pages[0]| + Total(pages[1..])
  }

  lemma {:induction false} FlattenLength(pages: seq<seq<Instance>>)
    ensures |Flatten(pages)| == Total(pages)
  {
    if |pages| > 0 {
      FlattenLength(pages[1..]);
    }
  }

  /** The diagnostic logged when the user owns several matching instances. */
  function MultipleMessage(user: string): string {
    "Multiple instances with tag:UserCreated=" + user + " please login to web UI and sort it out"
  }

  /**
   The instance the query for `user` found, given the pages the provider
   returned: the one instance when there is exactly one, nothing when there is
   none, and an abort with a logged diagnostic when there are several.
   */
  function GetInstance(pages: seq<seq<Instance>>, user: string): (o: Outcome<Option<Instance>>)
    ensures o.Done? && o.value.Some? ==>
      o.trace == [] && Total(pages) == 1 && o.value.value in Flatten(pages) &&
      forall p, j :: 0 <= p < |pages| && 0 <= j < |pages[p]| ==> pages[p][j] == o.value.value
    ensures o.Done? && o.value.None? ==>
      o.trace == [] && Total(pages) == 0 && forall p :: 0 <= p < |pages| ==> |pages[p]| == 0
    ensures o.Stopped? ==> o.halt == Exit && o.trace == [Logged(MultipleMessage(user))] && Total(pages) > 1
    ensures o.Done? <==> Total(pages) <= 1
  {
    var all := Flatten(pages);
    FlattenLength(pages);
    if |all| == 1 then Done([], Some(all[0]))
    else if |all| > 1 then Stopped([Logged(MultipleMessage(user))], Exit)
    else
      assert forall p :: 0 <= p < |pages| ==> |pages[p]| == 0 || pages[p][0] in all;
      Done([], None)
  }
}

=== FILE: manager.dfy ===
/**
 The container-based instance manager: registry credentials from a decoded
 authorization token, the image pull with one credential refresh and retry,
 the keyword arguments the container is started with, and the command lines
 handed to the containerised management script.
 */
module Manager {
  import opened Effects
  import opened Text

  const Repo := "752038878129.dkr.ecr.us-east-1.amazonaws.com/automation"
  const ImageTag := "dockerized_manage_py_latest"

  function Image(): string {
    Repo + ":" + ImageTag
  }

  datatype DockerAuth = DockerAuth(username: string, password: string)

  /** Frozen cloud credentials; the session token may be absent. */
  datatype Credentials = Credentials(accessKey: string, secretKey: string, token: Option<string>)

  datatype InstanceManager = InstanceManager(credentials: Credentials, dockerAuth: DockerAuth)

  /**
   Registry credentials from the decoded authorization token (fetching and
   base64-decoding the token are outside the model). Unpacking the split into
   exactly a user name and a password fails unless there is exactly one colon.
   */
  function GetDockerAuth(decoded: string): (o: Outcome<DockerAuth>)
    ensures o.trace == [FetchAuthToken]
    ensures o.Done? <==> Count(decoded, ':') == 1
    ensures o.Done? ==>
      && o.value.username + ":" + o.value.password == decoded
      && ':' !in o.value.username && ':' !in o.value.password
    ensures o.Stopped? ==> o.halt == Raise(ValueError)
  {
    var parts := Split(decoded, ':');
    if |parts| == 2 then
      JoinSplit(decoded, ':');
      assert Join(parts[1..], ':') == parts[1];
      Done([FetchAuthToken], DockerAuth(parts[0], parts[1]))
    else Stopped([FetchAuthToken], Raise(ValueError))
  }

  /** A user name and password without colons survive the token round trip. */
  lemma DockerAuthRoundTrip(username: string, password: string)
    requires ':' !in username && ':' !in password
    ensures GetDockerAuth(username + ":" + password) == Done([FetchAuthToken], DockerAuth(username, password))
  {
    SplitJoin([username, password], ':');
    assert Join([username, password], ':') == username + ":" + password;
  }

  /** Construct the manager: its credentials and the registry login it starts with. */
  function NewManager(credentials: Credentials, decoded: string): (o: Outcome<InstanceManager>)
    ensures o.trace == [FetchAuthToken]
    ensures o.Done? <==> Count(decoded, ':') == 1
    ensures o.Stopped? ==> o.halt == Raise(ValueError)
    ensures o.Done? ==>
      && o.value.credentials == credentials
      && o.value.dockerAuth.username + ":" + o.value.dockerAuth.password == decoded
  {
    match GetDockerAuth(decoded)
    case Done(t, auth) => Done(t, InstanceManager(credentials, auth))
    case Stopped(t, h) => Stopped(t, h)
  }

  /** What the registry does with each pull, and the token a refresh obtains. */
  datatype PullOracle = PullOracle(
    firstOk: bool,          // the first pull succeeds
    refreshedToken: string, // the token the registry hands out on refresh
    secondOk: bool,         // the pull with the refreshed credentials succeeds
    secondError: string)    // the registry's error when it does not

  function PullEvent(auth: DockerAuth): Event {
    Pull(Image(), auth.username, auth.password)
  }

  /** The number of pull attempts in a trace. */
  function PullCount(trace: seq<Event>): nat {
    if |trace| == 0 then 0 else (if trace[0].Pull? then 1 else 0) + PullCount(trace[1..])
  }

  /** The number of credential refreshes in a trace. */
  function RefreshCount(trace: seq<Event>): nat {
    if |trace| == 0 then 0 else (if trace[0] == FetchAuthToken then 1 else 0) + RefreshCount(trace[1..])
  }

  const PullingMessage := "[debugger]: Pulling docker image = " + Repo + ":" + ImageTag
  const RetryMessage := "[debugger]: Failed to pull " + Repo + ":" + ImageTag + ", attempting to get new credentials"
  const PullFailure := "Failed to pull docker image=" + Repo + ":" + ImageTag

  /**
   Pull the image. A successful first pull returns `None` at once. A failed
   one refreshes the registry credentials once and pulls again with them:
   `None` if that succeeds; if it fails too, the registry's error is logged
   and the failure message returned. A refreshed
   token that does not split into a user name and password raises.
   */
  function PullImage(m: InstanceManager, oracle: PullOracle): (o: Outcome<(InstanceManager, Option<string>)>)
    ensures PullCount(o.trace) <= 2
    ensures oracle.firstOk ==> o.Done? && o.value == (m, None) && PullCount(o.trace) == 1 && RefreshCount(o.trace) == 0
    ensures !oracle.firstOk ==> RefreshCount(o.trace) == 1
    ensures !oracle.firstOk ==> (o.Done? <==> Count(oracle.refreshedToken, ':') == 1)
    ensures !oracle.firstOk && o.Done? ==>
      PullCount(o.trace) == 2 && o.value.0.credentials == m.credentials &&
      o.value.0.dockerAuth.username + ":" + o.value.0.dockerAuth.password == oracle.refreshedToken &&
      PullEvent(o.value.0.dockerAuth) in o.trace
    ensures o.Done? ==> (o.value.1 == None <==> oracle.firstOk || oracle.secondOk)
    ensures o.Done? && o.value.1.Some? ==> o.value.1.value == PullFailure
    ensures o.Done? && !oracle.firstOk && !oracle.secondOk ==>
      o.trace[|o.trace| - 1] == Logged(oracle.secondError)
    ensures |o.trace| >= 2 && o.trace[0] == Info(PullingMessage) && o.trace[1] == PullEvent(m.dockerAuth)
    ensures !oracle.firstOk ==> |o.trace| >= 4 && o.trace[2] == Info(RetryMessage) && o.trace[3] == FetchAuthToken
    ensures !oracle.firstOk && o.Done? ==> |o.trace| >= 5 && o.trace[4] == PullEvent(o.value.0.dockerAuth)
  {
    var first := [Info(PullingMessage), PullEvent(m.dockerAuth)];
    if oracle.firstOk then
      CountsPair(Info(PullingMessage), PullEvent(m.dockerAuth), []);
      assert first + [] == first;
      Done(first, (m, None))
    else
      var rest := RetryPull(m, oracle);
      CountsPair(Info(PullingMessage), PullEvent(m.dockerAuth), rest.trace);
      Prepend(first, rest)
  }

  /**
   The pull after a failed first one: refresh the credentials, then pull
   with the refreshed ones, logging the registry's error if that fails.
   */
  function RetryPull(m: InstanceManager, oracle: PullOracle): (o: Outcome<(InstanceManager, Option<string>)>)
    ensures |o.trace| >= 2 && o.trace[0] == Info(RetryMessage) && o.trace[1] == FetchAuthToken
    ensures RefreshCount(o.trace) == 1 && PullCount(o.trace) <= 1
    ensures o.Done? <==> Count(oracle.refreshedToken, ':') == 1
    ensures o.Done? ==>
      && PullCount(o.trace) == 1 && |o.trace| >= 3 && o.trace[2] == PullEvent(o.value.0.dockerAuth)
      && o.value.0.credentials == m.credentials
      && o.value.0.dockerAuth.username + ":" + o.value.0.dockerAuth.password == oracle.refreshedToken
    ensures o.Done? ==> (o.value.1 == None <==> oracle.secondOk)
    ensures o.Done? && o.value.1.Some? ==> o.value.1.value == PullFailure
    ensures o.Done? && !oracle.secondOk ==> o.trace[|o.trace| - 1] == Logged(oracle.secondError)
  {
    match GetDockerAuth(oracle.refreshedToken)
    case Stopped(_, h) =>
      CountsPair(Info(RetryMessage), FetchAuthToken, []);
      assert [Info(RetryMessage), FetchAuthToken] + [] == [Info(RetryMessage), FetchAuthToken];
      Stopped([Info(RetryMessage), FetchAuthToken], h)
    case Done(_, auth) =>
      var second := if oracle.secondOk then [PullEvent(auth)] else [PullEvent(auth), Logged(oracle.secondError)];
      CountsOne(PullEvent(auth));
      CountsPair(PullEvent(auth), Logged(oracle.secondError), []);
      assert [PullEvent(auth), Logged(oracle.secondError)] + [] == [PullEvent(auth), Logged(oracle.secondError)];
      CountsPair(Info(RetryMessage), FetchAuthToken, second);
      Done([Info(RetryMessage), FetchAuthToken] + second, (m.(dockerAuth := auth), if oracle.secondOk then None else Some(PullFailure)))
  }

  lemma CountsPair(a: Event, b: Event, rest: seq<Event>)
    ensures PullCount([a, b] + rest) == (if a.Pull? then 1 else 0) + (if b.Pull? then 1 else 0) + PullCount(rest)
    ensures RefreshCount([a, b] + rest) == (if a == FetchAuthToken then 1 else 0) + (if b == FetchAuthToken then 1 else 0) + RefreshCount(rest)
  {
    assert ([a, b] + rest)[1..] == [b] + rest;
    assert ([b] + rest)[1..] == rest;
  }

  lemma CountsOne(e: Event)
    ensures PullCount([e]) == (if e.Pull? then 1 else 0)
    ensures RefreshCount([e]) == (if e == FetchAuthToken then 1 else 0)
  {
    assert [e][1..] == [];
  }

  /** The session token as passed to the container: the empty string when absent or empty. */
  function SessionToken(c: Credentials): (t: string)
    ensures t == "" <==> c.token == None || c.token.value == ""
    ensures c.token.Some? ==> t == c.token.value
  {
    if c.token.Some? && c.token.value != "" then c.token.value else ""
  }

  /** The keyword arguments every container is started with. */
  function GetKwargs(c: Credentials): (kw: map<string, KwValue>)
    ensures kw.Keys == {"image", "shm_size", "environment", "detach"}
    ensures kw["environment"].Env?
    ensures kw["environment"].vars.Keys == {"AWS_ACCESS_KEY_ID", "AWS_SECRET_ACCESS_KEY", "AWS_SESSION_TOKEN"}
    ensures kw["environment"].vars["AWS_SESSION_TOKEN"] == "" <==> c.token == None || c.token.value == ""
    ensures c.token.Some? ==> kw["environment"].vars["AWS_SESSION_TOKEN"] == c.token.value
    ensures kw["environment"].vars["AWS_ACCESS_KEY_ID"] == c.accessKey
    ensures kw["environment"].vars["AWS_SECRET_ACCESS_KEY"] == c.secretKey
  {
    map[
      "image" := Str(Image()),
      "shm_size" := Str("1GB"),
      "environment" := Env(map[
        "AWS_ACCESS_KEY_ID" := c.accessKey,
        "AWS_SECRET_ACCESS_KEY" := c.secretKey,
        "AWS_SESSION_TOKEN" := SessionToken(c)]),
      "detach" := Flag(true)]
  }

  /** The container arguments for one command: the common arguments plus the command, nothing else changed. */
  function RunKwargs(c: Credentials, cmd: string): (kw: map<string, KwValue>)
    ensures kw.Keys == GetKwargs(c).Keys + {"command"}
    ensures kw["command"] == Str(cmd)
    ensures forall k :: k in GetKwargs(c) ==> kw[k] == GetKwargs(c)[k]
  {
    GetKwargs(c)["command" := Str(cmd)]
  }

  /** Start the container with `cmd` and log each line it prints, without its surrounding newlines. */
  function RunManager(m: InstanceManager, cmd: string, logs: seq<string>): (o: Outcome<()>)
    ensures o.Done? && |o.trace| == 1 + |logs| && o.trace[0] == ContainerRun(RunKwargs(m.credentials, cmd))
    ensures forall i :: 0 <= i < |logs| ==> o.trace[1 + i] == Info(Strip(logs[i], '\n'))
  {
    Done(ContainerTranscript(ContainerRun(RunKwargs(m.credentials, cmd)), logs), ())
  }

  /** The container start followed by one record per printed line. */
  function ContainerTranscript(start: Event, logs: seq<string>): (es: seq<Event>)
    ensures |es| == 1 + |logs| && es[0] == start
    ensures forall i :: 0 <= i < |logs| ==> es[1 + i] == Info(Strip(logs[i], '\n'))
  {
    [start] + seq(|logs|, i requires 0 <= i < |logs| => Info(Strip(logs[i], '\n')))
  }

  /** The management-script command that creates an instance, with the defaults of the manager's `create_ec2`. */
  function CreateCommand(user: string, kind: string := "analytics_xs", env: string := "release", priority: string := "high"): string {
    "python manage.py " + "-a create -t " + kind + " -e " + env + " " + "-p " + priority + " -u " + user
  }

  /** The arguments every lifecycle command shares: user, environment, priority and the instance. */
  function LifecycleArgs(user: string, instanceId: string, env: string, priority: string): string {
    "-u " + user + " " + "-e " + env + " -p " + priority + " " + "--instance_ids " + instanceId + " "
  }

  function StopCommand(user: string, instanceId: string, env: string, priority: string := "high"): string {
    "python manage.py -a stop " + LifecycleArgs(user, instanceId, env, priority)
  }

  function StartCommand(user: string, instanceId: string, env: string, priority: string := "high"): string {
    "python manage.py -a start " + LifecycleArgs(user, instanceId, env, priority)
  }

  function TerminateCommand(user: string, instanceId: string, env: string, priority: string := "high"): string {
    "python manage.py -a terminate " + LifecycleArgs(user, instanceId, env, priority)
  }

  /** The stop, start and terminate commands differ only in the action word. */
  lemma LifecycleCommandsDifferOnlyInAction(user: string, instanceId: string, env: string, priority: string)
    ensures var rest := " " + LifecycleArgs(user, instanceId, env, priority);
      && StopCommand(user, instanceId, env, priority) == "python manage.py -a " + "stop" + rest
      && StartCommand(user, instanceId, env, priority) == "python manage.py -a " + "start" + rest
      && TerminateCommand(user, instanceId, env, priority) == "python manage.py -a " + "terminate" + rest
  {
    var args := LifecycleArgs(user, instanceId, env, priority);
    assert "python manage.py -a stop " == "python manage.py -a " + "stop" + " ";
    assert "python manage.py -a start " == "python manage.py -a " + "start" + " ";
    assert "python manage.py -a terminate " == "python manage.py -a " + "terminate" + " ";
  }

  /** The default creation command asks for an `analytics_xs` instance in `release` at `high` priority. */
  lemma CreateDefaults(user: string)
    ensures CreateCommand(user) == "python manage.py -a create -t analytics_xs -e release -p high -u " + user
  {
    var a := "python manage.py " + "-a create -t ";
    assert a == "python manage.py -a create -t ";
    var b := a + "analytics_xs";
    assert b == "python manage.py -a create -t analytics_xs";
    var c := b + " -e " + "release";
    assert c == "python manage.py -a create -t analytics_xs -e release";
    var d := c + " " + "-p " + "high";
    assert d == "python manage.py -a create -t analytics_xs -e release -p high";
    assert d + " -u " == "python manage.py -a create -t analytics_xs -e release -p high -u ";
  }

  /** The manager's lifecycle operations: run the corresponding command in a container. */
  function CreateEc2(m: InstanceManager, user: string, logs: seq<string>, kind: string := "analytics_xs", env: string := "release", priority: string := "high"): (o: Outcome<()>)
    ensures o.Done? && |o.trace| == 1 + |logs| && o.trace[0] == ContainerRun(RunKwargs(m.credentials, CreateCommand(user, kind, env, priority)))
    ensures forall i :: 0 <= i < |logs| ==> o.trace[1 + i] == Info(Strip(logs[i], '\n'))
  {
    RunManager(m, CreateCommand(user, kind, env, priority), logs)
  }

  function StopEc2(m: InstanceManager, user: string, logs: seq<string>, instanceId: string, env: string, priority: string := "high"): (o: Outcome<()>)
    ensures o.Done? && |o.trace| == 1 + |logs| && o.trace[0] == ContainerRun(RunKwargs(m.credentials, StopCommand(user, instanceId, env, priority)))
    ensures forall i :: 0 <= i < |logs| ==> o.trace[1 + i] == Info(Strip(logs[i], '\n'))
  {
    RunManager(m, StopCommand(user, instanceId, env, priority), logs)
  }

  function StartEc2(m: InstanceManager, user: string, logs: seq<string>, instanceId: string, env: string, priority: string := "high"): (o: Outcome<()>)
    ensures o.Done? && |o.trace| == 1 + |logs| && o.trace[0] == ContainerRun(RunKwargs(m.credentials, StartCommand(user, instanceId, env, priority)))
    ensures forall i :: 0 <= i < |logs| ==> o.trace[1 + i] == Info(Strip(logs[i], '\n'))
  {
    RunManager(m, StartCommand(user, instanceId, env, priority), logs)
  }

  function TerminateEc2(m: InstanceManager, user: string, logs: seq<string>, instanceId: string, env: string, priority: string := "high"): (o: Outcome<()>)
    ensures o.Done? && |o.trace| == 1 + |logs| && o.trace[0] == ContainerRun(RunKwargs(m.credentials, TerminateCommand(user, instanceId, env, priority)))
    ensures forall i :: 0 <= i < |logs| ==> o.trace[1 + i] == Info(Strip(logs[i], '\n'))
  {
    RunManager(m, TerminateCommand(user, instanceId, env, priority), logs)
  }
}

=== FILE: runner.dfy ===
/**
 The pipeline runner's own state and the decisions it takes before any remote
 command: where the private key comes from, what it records about the located
 instance, and when it asks the cloud to start, stop or terminate the instance.
 */
module Runner {
  import opened Effects
  import opened Locator

  const TmpStorage := "tmp_storage"
  /** The variable named in the key-path diagnostics. */
  const PemVariable := "PEM_FILE_PATH"
  /** The variable actually read for the key path. */
  const PemEnvKey := "ANALYTICS_PEM"
  const Directory := "[DIRECTORY]"
  const ProdRepo := "[PROD REPO]"

  /**
   The fields of a runner after construction. `instanceState` is the attribute
   the lifecycle warnings and the workflow consult; construction sets it to
   `None` and no operation ever assigns it. `connected` records whether the
   remote-shell client attribute has been set by a remote command.
   */
  datatype PipelineRunner = PipelineRunner(
    pemFile: string,
    username: string,
    instance: Instance,
    instanceId: string,
    instanceIp: string,
    instanceState: Option<string>,
    environment: seq<string>,
    connected: bool)

  /** The outcome of one cloud lifecycle call. */
  datatype ApiResult = ApiOk | ApiFails(message: string)

  /** The values of the tags whose key is `Environment`, in tag order. */
  function EnvironmentValues(tags: seq<Tag>): (vals: seq<string>)
    ensures |vals| <= |tags|
    ensures forall v :: v in vals <==> exists i :: 0 <= i < |tags| && tags[i] == Tag("Environment", v)
  {
    if |tags| == 0 then []
    else
      var rest := EnvironmentValues(tags[1..]);
      assert forall i :: 1 <= i < |tags| ==> tags[i] == tags[1..][i - 1];
      if tags[0].key == "Environment" then [tags[0].value] + rest else rest
  }

  /** Keeping only the `Environment` tags keeps their order: values of a concatenation concatenate. */
  lemma {:induction false} EnvironmentValuesAppend(a: seq<Tag>, b: seq<Tag>)
    ensures EnvironmentValues(a + b) == EnvironmentValues(a) + EnvironmentValues(b)
  {
    if |a| == 0 {
      assert a + b == b;
    } else {
      assert (a + b)[1..] == a[1..] + b;
      EnvironmentValuesAppend(a[1..], b);
    }
  }

  /**
   The key path the runner will use: the value of `ANALYTICS_PEM` when that
   variable is set and names an existing file; otherwise one informational
   diagnostic and an exit. Both diagnostics name `PEM_FILE_PATH`, which is
   not the variable consulted.
   */
  function GetAnalyticsPem(env: map<string, string>, existing: set<string>): (o: Outcome<string>)
    ensures o.Done? <==> PemEnvKey in env && env[PemEnvKey] in existing
    ensures o.Done? ==> o.value == env[PemEnvKey] && o.trace == []
    ensures o.Stopped? ==> o.halt == Exit && |o.trace| == 1 && o.trace[0].Info?
    ensures PemEnvKey !in env ==>
      o.trace == [Info("[debugger]: Please run 'export " + PemVariable + "=/path/to/your/analytics.pem' ")]
    ensures PemEnvKey in env && env[PemEnvKey] !in existing ==>
      o.trace == [Info("[debugger]: No such file as " + PemVariable + " - please check.")]
  {
    if PemEnvKey in env then
      var path := env[PemEnvKey];
      if path in existing then Done([], path)
      else Stopped([Info("[debugger]: No such file as " + PemVariable + " - please check.")], Exit)
    else Stopped([Info("[debugger]: Please run 'export " + PemVariable + "=/path/to/your/analytics.pem' ")], Exit)
  }

  /**
   Construct a runner: locate the instance, then read its id, first private
   address and environment tags. No match leaves `None` in place of the
   instance, whose attribute read raises; an instance without a network
   interface raises on the index.
   */
  function NewRunner(pemFile: string, username: string, pages: seq<seq<Instance>>, user: string): (o: Outcome<PipelineRunner>)
    ensures o.Done? ==>
      o.trace == [] && Total(pages) == 1 &&
      o.value.instanceState == None && !o.value.connected &&
      o.value.pemFile == pemFile && o.value.username == username &&
      (forall p, j :: 0 <= p < |pages| && 0 <= j < |pages[p]| ==> pages[p][j] == o.value.instance) &&
      o.value.instanceId == o.value.instance.id &&
      |o.value.instance.privateIps| > 0 && o.value.instanceIp == o.value.instance.privateIps[0] &&
      (forall v :: v in o.value.environment <==>
         exists i :: 0 <= i < |o.value.instance.tags| && o.value.instance.tags[i] == Tag("Environment", v))
    ensures Total(pages) == 0 ==> o == Stopped([], Raise(AttributeError))
    ensures Total(pages) > 1 ==> o == Stopped([Logged(MultipleMessage(user))], Exit)
    ensures Total(pages) == 1 && (forall p, j :: 0 <= p < |pages| && 0 <= j < |pages[p]| ==> |pages[p][j].privateIps| == 0) ==>
      o == Stopped([], Raise(IndexError))
    ensures Total(pages) == 1 && (exists p, j :: 0 <= p < |pages| && 0 <= j < |pages[p]| && |pages[p][j].privateIps| > 0) ==>
      o.Done?
  {
    match GetInstance(pages, user)
    case Stopped(t, h) => Stopped(t, h)
    case Done(t, None) => Stopped(t, Raise(AttributeError))
    case Done(t, Some(inst)) =>
      assert exists p :: 0 <= p < |pages| && inst in pages[p];
      if |inst.privateIps| == 0 then Stopped(t, Raise(IndexError))
      else Done(t, PipelineRunner(pemFile, username, inst, inst.id, inst.privateIps[0], None,
                                  EnvironmentValues(inst.tags), false))
  }

  /** Every event that asks the provider to change the instance's state. */
  predicate IsCloudCall(e: Event) {
    e.StartCall? || e.StopCall? || e.TerminateCall?
  }

  /** The events of an action that tried the cloud call `call`: success logs, failure logs and re-raises. */
  function Attempt(call: Event, api: ApiResult, success: string): (o: Outcome<()>)
    ensures 1 < |o.trace| && o.trace[0] == call
    ensures o.Done? <==> api.ApiOk?
    ensures api.ApiOk? ==> o.trace == [call, Info(success)]
    ensures api.ApiFails? ==> o == Stopped([call, Logged(api.message)], Raise(ClientError(api.message)))
  {
    match api
    case ApiOk => Done([call, Info(success)], ())
    case ApiFails(m) => Stopped([call, Logged(m)], Raise(ClientError(m)))
  }

  /**
   Start the instance when the provider reports it `stopped`; in every other
   state warn and issue no call. The warning quotes the `instanceState`
   attribute, not the provider's state.
   */
  function StartEc2(r: PipelineRunner, api: ApiResult): (o: Outcome<()>)
    ensures r.instance.state == "stopped" <==> StartCall(r.instanceId) in o.trace
    ensures r.instance.state == "stopped" ==> o.trace[0] == StartCall(r.instanceId) && (o.Done? <==> api.ApiOk?)
    ensures r.instance.state != "stopped" ==>
      o == Done([Warn("[debugger]: Cannot start instance " + r.instanceId + " from state:" + Show(r.instanceState))], ())
    ensures r.instance.state == "stopped" ==>
      o == Attempt(StartCall(r.instanceId), api, "[debugger]: Started instance " + r.instanceId)
    ensures forall i :: 0 <= i < |o.trace| && IsCloudCall(o.trace[i]) ==> o.trace[i] == StartCall(r.instanceId)
  {
    if r.instance.state == "stopped" then
      Attempt(StartCall(r.instanceId), api, "[debugger]: Started instance " + r.instanceId)
    else
      Done([Warn("[debugger]: Cannot start instance " + r.instanceId + " from state:" + Show(r.instanceState))], ())
  }

  /**
   Stop the instance when the provider reports it `running` or `pending`.
   Otherwise the warning branch tests the `instanceState` attribute, so it only
   warns when that attribute holds `stopping` or `stopped`, and is silent
   otherwise.
   */
  function StopEc2(r: PipelineRunner, api: ApiResult): (o: Outcome<()>)
    ensures r.instance.state in {"running", "pending"} <==> StopCall(r.instanceId) in o.trace
    ensures r.instance.state in {"running", "pending"} ==> o.trace[0] == StopCall(r.instanceId) && (o.Done? <==> api.ApiOk?)
    ensures r.instance.state !in {"running", "pending"} ==>
      o.Done? && (o.trace == [] <==> r.instanceState !in {Some("stopping"), Some("stopped")})
    ensures r.instance.state in {"running", "pending"} ==>
      o == Attempt(StopCall(r.instanceId), api, "[debugger]: Instance " + r.instanceId + " successfully stopped")
    ensures r.instance.state !in {"running", "pending"} && r.instanceState in {Some("stopping"), Some("stopped")} ==>
      o == Done([Warn("[debugger]: Instance " + r.instanceId + " is at state:" + Show(r.instanceState))], ())
    ensures forall i :: 0 <= i < |o.trace| && IsCloudCall(o.trace[i]) ==> o.trace[i] == StopCall(r.instanceId)
  {
    if r.instance.state in {"running", "pending"} then
      Attempt(StopCall(r.instanceId), api, "[debugger]: Instance " + r.instanceId + " successfully stopped")
    else if r.instanceState in {Some("stopping"), Some("stopped")} then
      Done([Warn("[debugger]: Instance " + r.instanceId + " is at state:" + Show(r.instanceState))], ())
    else Done([], ())
  }

  /** Terminate the instance when the provider reports it `stopped`; otherwise warn and issue no call. */
  function KillEc2(r: PipelineRunner, api: ApiResult): (o: Outcome<()>)
    ensures r.instance.state == "stopped" <==> TerminateCall(r.instanceId) in o.trace
    ensures r.instance.state == "stopped" ==> o.trace[0] == TerminateCall(r.instanceId) && (o.Done? <==> api.ApiOk?)
    ensures r.instance.state != "stopped" ==>
      o == Done([Warn("[debugger]: Instance " + r.instanceId + " cannot be terminated from state:" + Show(r.instanceState))], ())
    ensures r.instance.state == "stopped" ==>
      o == Attempt(TerminateCall(r.instanceId), api, "[debugger]: Instance " + r.instanceId + " successfully terminated")
    ensures forall i :: 0 <= i < |o.trace| && IsCloudCall(o.trace[i]) ==> o.trace[i] == TerminateCall(r.instanceId)
  {
    if r.instance.state == "stopped" then
      Attempt(TerminateCall(r.instanceId), api, "[debugger]: Instance " + r.instanceId + " successfully terminated")
    else
      Done([Warn("[debugger]: Instance " + r.instanceId + " cannot be terminated from state:" + Show(r.instanceState))], ())
  }

  /**
   For a runner as constructed, stopping an instance that is neither running
   nor pending produces no event at all: the warning branch can never fire.
   */
  lemma StopSilentWhenNotRunning(pemFile: string, username: string, pages: seq<seq<Instance>>, user: string, api: ApiResult)
    requires NewRunner(pemFile, username, pages, user).Done?
    requires NewRunner(pemFile, username, pages, user).value.instance.state !in {"running", "pending"}
    ensures StopEc2(NewRunner(pemFile, username, pages, user).value, api) == Done([], ())
  {
  }

  /**
   For a runner as constructed, every lifecycle warning reports the state as
   `None`, whatever state the provider reported.
   */
  lemma WarningsShowNone(pemFile: string, username: string, pages: seq<seq<Instance>>, user: string, api: ApiResult)
    requires NewRunner(pemFile, username, pages, user).Done?
    ensures var r := NewRunner(pemFile, username, pages, user).value;
      (r.instance.state != "stopped" ==>
         StartEc2(r, api).trace == [Warn("[debugger]: Cannot start instance " + r.instanceId + " from state:None")]) &&
      (r.instance.state != "stopped" ==>
         KillEc2(r, api).trace == [Warn("[debugger]: Instance " + r.instanceId + " cannot be terminated from state:None")])
  {
    var r := NewRunner(pemFile, username, pages, user).value;
    assert Show(r.instanceState) == "None";
    var a := "[debugger]: Cannot start instance " + r.instanceId;
    assert a + " from state:" + "None" == a + " from state:None";
    var b := "[debugger]: Instance " + r.instanceId;
    assert b + " cannot be terminated from state:" + "None" == b + " cannot be terminated from state:None";
  }
}

=== FILE: session.dfy ===
/**
 The session runner: one remote command per call. It loads the key, connects,
 executes the command, logs each complete output line while the command is
 still running, and returns the trimmed remainder of stdout and all of stderr.
 */
module Session {
  import opened Effects
  import opened Text
  import opened Runner

  /** A line as the line splitter yields it: it ends in a newline and contains no other. */
  predicate IsLine(l: string) {
    |l| > 0 && l[|l| - 1] == '\n' && '\n' !in l[..|l| - 1]
  }

  function Concat(ls: seq<string>): string {
    if |ls| == 0 then "" else ls[0] + Concat(ls[1..])
  }

  lemma {:induction false} ConcatSnoc(ls: seq<string>, l: string)
    ensures Concat(ls + [l]) == Concat(ls) + l
  {
    if |ls| == 0 {
      assert ls + [l] == [l];
      assert Concat([l][1..]) == "";
    } else {
      assert (ls + [l])[1..] == ls[1..] + [l];
      ConcatSnoc(ls[1..], l);
    }
  }

  /**
   Reference definition of what the splitter yields from the characters `t`:
   every newline-terminated piece of `t`, in order.
   */
  function CompleteLines(t: string): seq<string> {
    var p := Split(t, '\n');
    seq(|p| - 1, i requires 0 <= i < |p| - 1 => p[i] + "\n")
  }

  /** The characters after the last newline of `t`: the line still being accumulated. */
  function Partial(t: string): string {
    var p := Split(t, '\n');
    p[|p| - 1]
  }

  /** How one more character changes the complete lines and the partial line. */
  lemma LinesSnoc(t: string, c: char)
    ensures c == '\n' ==> CompleteLines(t + [c]) == CompleteLines(t) + [Partial(t) + "\n"] && Partial(t + [c]) == ""
    ensures c != '\n' ==> CompleteLines(t + [c]) == CompleteLines(t) && Partial(t + [c]) == Partial(t) + [c]
  {
    var p := Split(t, '\n');
    if c == '\n' {
      SplitSnocSep(t, '\n');
      assert Split(t + [c], '\n') == p + [""];
    } else {
      SplitSnocOther(t, c, '\n');
    }
  }

  /**
   The complete lines of `t` followed by its partial line are exactly `t`;
   every complete line is a line, and the partial line holds no newline.
   */
  lemma LinesDecompose(t: string)
    ensures Concat(CompleteLines(t)) + Partial(t) == t
    ensures forall i :: 0 <= i < |CompleteLines(t)| ==> IsLine(CompleteLines(t)[i])
    ensures '\n' !in Partial(t)
  {
    LinesConcat(t);
    LinesAreLines(t);
  }

  /** Every complete line of `t` is a line, and its partial line holds no newline. */
  lemma LinesAreLines(t: string)
    ensures forall i :: 0 <= i < |CompleteLines(t)| ==> IsLine(CompleteLines(t)[i])
    ensures '\n' !in Partial(t)
  {
    var p := Split(t, '\n');
    forall i | 0 <= i < |CompleteLines(t)|
      ensures IsLine(CompleteLines(t)[i])
    {
      PartialEndsLine(p[i]);
    }
  }

  /** The complete lines of `t` followed by its partial line are exactly `t`. */
  lemma {:induction false} LinesConcat(t: string)
    ensures Concat(CompleteLines(t)) + Partial(t) == t
  {
    if |t| == 0 {
      assert Split(t, '\n') == [""];
      assert CompleteLines(t) == [];
    } else {
      var s := t[..|t| - 1];
      var c := t[|t| - 1];
      assert t == s + [c];
      LinesConcat(s);
      LinesSnoc(s, c);
      if c == '\n' {
        var l := Partial(s) + "\n";
        ConcatSnoc(CompleteLines(s), l);
        assert Concat(CompleteLines(s)) + l + "" == (Concat(CompleteLines(s)) + Partial(s)) + [c];
      } else {
        assert Concat(CompleteLines(s)) + (Partial(s) + [c]) == (Concat(CompleteLines(s)) + Partial(s)) + [c];
      }
    }
  }

  /** A partial line completed by a newline is a line. */
  lemma PartialEndsLine(p: string)
    requires '\n' !in p
    ensures IsLine(p + "\n")
  {
    assert (p + "\n")[..|p|] == p;
  }

  /** The number of characters the splitter reads: one per poll, until the stream runs out. */
  function Consumed(stream: string, polls: nat): (k: nat)
    ensures k <= |stream| && k <= polls
    ensures k == polls || k == |stream|
  {
    if polls < |stream| then polls else |stream|
  }

  /**
   The line splitter over stdout. Before each read it polls whether the
   command's exit status is ready; `polls` is how many polls answer "not yet".
   Each read takes one character, or nothing once the stream is exhausted.
   A line is yielded as soon as the buffer ends in a newline, so the yielded
   lines are the complete lines of what was read, and the trailing partial
   line is never yielded.
   */
  method LineBuffered(stream: string, polls: nat) returns (lines: seq<string>, consumed: nat)
    ensures consumed == Consumed(stream, polls)
    ensures lines == CompleteLines(stream[..consumed])
    ensures forall i :: 0 <= i < |lines| ==> IsLine(lines[i])
    ensures Concat(lines) <= stream[..consumed]
    ensures '\n' !in stream[|Concat(lines)|..consumed]
  {
    var buf := "";
    lines := [];
    consumed := 0;
    var n := 0;
    while n < polls
      invariant n <= polls
      invariant consumed == Consumed(stream, n)
      invariant lines == CompleteLines(stream[..consumed])
      invariant buf == Partial(stream[..consumed])
    {
      var pre := stream[..consumed];
      var piece := if consumed < |stream| then [stream[consumed]] else "";
      LinesDecompose(pre);
      if consumed < |stream| {
        assert stream[..consumed + 1] == pre + [stream[consumed]];
        LinesSnoc(pre, stream[consumed]);
        consumed := consumed + 1;
      }
      buf := buf + piece;
      if |buf| > 0 && buf[|buf| - 1] == '\n' {
        lines := lines + [buf];
        buf := "";
      }
      n := n + 1;
    }
    LinesDecompose(stream[..consumed]);
    assert stream[..consumed] == Concat(lines) + buf;
    assert stream[|Concat(lines)|..consumed] == buf;
  }

  /** What the remote side does for one command, as seen by the runner. */
  datatype Remote = Remote(
    keyLoads: bool,               // the key file could be read
    connectError: Option<string>, // the connection attempt failed with this message
    stdout: string,
    stderr: string,
    polls: nat)                   // polls answering "exit status not ready"

  datatype CommandResult = CommandResult(stdout: string, stderr: string)

  /** The log records of the yielded lines: each line without its newline. */
  function LogLines(ls: seq<string>): (es: seq<Event>)
    ensures |es| == |ls|
    ensures forall i :: 0 <= i < |es| ==> es[i].Info?
    ensures forall i :: 0 <= i < |ls| && IsLine(ls[i]) ==> es[i] == Info(ls[i][..|ls[i]| - 1])
  {
    LoggedLinesAreContent(ls);
    seq(|ls|, i requires 0 <= i < |ls| => Info(Strip(ls[i], '\n')))
  }

  /** A yielded line is logged as its text without the newline. */
  lemma LoggedLineIsContent(l: string)
    requires IsLine(l)
    ensures Strip(l, '\n') == l[..|l| - 1]
  {
    if |l| > 1 {
      assert l[0] in l[..|l| - 1];
      assert StripLeft(l, '\n') == l;
      assert l[..|l| - 1][|l| - 2] != '\n';
    } else {
      assert AllOf(l, '\n');
    }
  }

  lemma LoggedLinesAreContent(ls: seq<string>)
    ensures forall i :: 0 <= i < |ls| && IsLine(ls[i]) ==> Strip(ls[i], '\n') == ls[i][..|ls[i]| - 1]
  {
    forall i | 0 <= i < |ls| && IsLine(ls[i])
      ensures Strip(ls[i], '\n') == ls[i][..|ls[i]| - 1]
    {
      LoggedLineIsContent(ls[i]);
    }
  }

  lemma {:induction false} NoCommandsInLogs(es: seq<Event>)
    requires forall i :: 0 <= i < |es| ==> es[i].Info? || es[i].Fatal?
    ensures Commands(es) == []
  {
    if |es| > 0 {
      NoCommandsInLogs(es[1..]);
    }
  }

  /** The records logged once the command has finished: stderr as fatal, stdout as informational. */
  function Summary(out: string, err: string): (es: seq<Event>)
    ensures Commands(es) == []
    ensures LogsFatal(es) <==> err != ""
    ensures Fatal("[debugger]: " + err) in es <==> err != ""
    ensures Info("[debugger]: OUT: " + out) in es <==> out != ""
    ensures |es| == (if err != "" then 1 else 0) + (if out != "" then 1 else 0)
    ensures err != "" ==> es[0] == Fatal("[debugger]: " + err)
  {
    var es := (if err != "" then [Fatal("[debugger]: " + err)] else [])
      + (if out != "" then [Info("[debugger]: OUT: " + out)] else []);
    NoCommandsInLogs(es);
    es
  }

  /**
   The records of one connected run: the connection, the announcement and the
   command, one record per complete line read while the command ran, and the
   final summary.
   */
  function Transcript(r: PipelineRunner, cmd: string, lines: seq<string>, out: string, err: string): (t: seq<Event>)
    ensures Commands(t) == [cmd]
    ensures Puts(t) == []
    ensures |t| >= 3 + |lines|
    ensures t[..3] == Opening(r, cmd)
    ensures t[3..3 + |lines|] == LogLines(lines)
    ensures LogsFatal(t) <==> err != ""
  {
    var head := Opening(r, cmd);
    var logs := LogLines(lines);
    var tail := Summary(out, err);
    OpeningEffects(r, cmd);
    LogLinesEffects(lines);
    SummaryEffects(out, err);
    Pieces(head, logs, tail);
    head + logs + tail
  }

  /** The records that open a connected run. */
  function Opening(r: PipelineRunner, cmd: string): (es: seq<Event>)
    ensures |es| == 3
  {
    [Connect(r.instanceIp, r.username), Info("[debugger]: Running " + cmd), RemoteCmd(cmd)]
  }

  lemma OpeningEffects(r: PipelineRunner, cmd: string)
    ensures Commands(Opening(r, cmd)) == [cmd]
    ensures Puts(Opening(r, cmd)) == []
    ensures !LogsFatal(Opening(r, cmd))
  {
    var es := Opening(r, cmd);
    assert es[2..][1..] == [];
    assert Commands(es[2..]) == [cmd];
    NoPuts(es);
  }

  lemma LogLinesEffects(lines: seq<string>)
    ensures Commands(LogLines(lines)) == []
    ensures Puts(LogLines(lines)) == []
    ensures !LogsFatal(LogLines(lines))
  {
    NoCommandsInLogs(LogLines(lines));
    NoPuts(LogLines(lines));
  }

  lemma SummaryEffects(out: string, err: string)
    ensures Puts(Summary(out, err)) == []
  {
    NoPuts(Summary(out, err));
  }

  /** How the effects of three consecutive pieces of a trace combine. */
  lemma Pieces(a: seq<Event>, b: seq<Event>, c: seq<Event>)
    ensures Commands(a + b + c) == Commands(a) + Commands(b) + Commands(c)
    ensures Puts(a + b + c) == Puts(a) + Puts(b) + Puts(c)
    ensures LogsFatal(a + b + c) <==> LogsFatal(a) || LogsFatal(b) || LogsFatal(c)
    ensures (a + b + c)[..|a|] == a
    ensures (a + b + c)[|a|..|a| + |b|] == b
  {
    CommandsAppend(a, b);
    CommandsAppend(a + b, c);
    PutsAppend(a, b);
    PutsAppend(a + b, c);
    FatalAppend(a, b);
    FatalAppend(a + b, c);
  }

  /**
   The connected part of a run: submit the command, log the complete lines the
   splitter read, then log and return the trimmed unread stdout and stderr.
   */
  function Execute(r: PipelineRunner, cmd: string, remote: Remote): (o: Outcome<(PipelineRunner, CommandResult)>)
    ensures o.Done? && Commands(o.trace) == [cmd] && Puts(o.trace) == []
    ensures var lines := CompleteLines(remote.stdout[..Consumed(remote.stdout, remote.polls)]);
      && |o.trace| >= 3 + |lines|
      && o.trace[..3] == [Connect(r.instanceIp, r.username), Info("[debugger]: Running " + cmd), RemoteCmd(cmd)]
      && o.trace[3..3 + |lines|] == LogLines(lines)
    ensures o.value.0 == r.(connected := true)
    ensures o.value.1.stdout == Strip(remote.stdout[Consumed(remote.stdout, remote.polls)..], '\n')
    ensures o.value.1.stderr == Strip(remote.stderr, '\n')
    ensures LogsFatal(o.trace) <==> o.value.1.stderr != ""
  {
    var k := Consumed(remote.stdout, remote.polls);
    var out := Strip(remote.stdout[k..], '\n');
    var err := Strip(remote.stderr, '\n');
    Done(Transcript(r, cmd, CompleteLines(remote.stdout[..k]), out, err), (r.(connected := true), CommandResult(out, err)))
  }

  /**
   Run one command: load the key (a missing key file is logged, and the
   caller's unpacking of the missing result raises), connect (a failure is
   logged and exits), then execute. Only a completed run submits the command,
   and the returned output never begins or ends with a newline.
   */
  function Run(r: PipelineRunner, cmd: string, remote: Remote): (o: Outcome<(PipelineRunner, CommandResult)>)
    ensures o.Done? <==> remote.keyLoads && remote.connectError.None?
    ensures Commands(o.trace) == (if o.Done? then [cmd] else [])
    ensures !remote.keyLoads ==> o == Stopped([Fatal("[debugger]: No such pem file as " + r.pemFile)], Raise(TypeError))
    ensures remote.keyLoads ==> |o.trace| > 0 && o.trace[0] == Connect(r.instanceIp, r.username)
    ensures remote.keyLoads && remote.connectError.Some? ==> o.halt == Exit
    ensures o.Done? ==> o.value.0 == r.(connected := true)
    ensures o.Done? ==>
      o.value.1 == CommandResult(Strip(remote.stdout[Consumed(remote.stdout, remote.polls)..], '\n'), Strip(remote.stderr, '\n'))
    ensures o.Done? ==> (LogsFatal(o.trace) <==> !AllOf(remote.stderr, '\n'))
  {
    if !remote.keyLoads then
      Stopped([Fatal("[debugger]: No such pem file as " + r.pemFile)], Raise(TypeError))
    else
      match remote.connectError
      case Some(m) =>
        var t := [Connect(r.instanceIp, r.username), Logged(m)];
        assert Commands(t) == [];
        Stopped(t, Exit)
      case None => Execute(r, cmd, remote)
  }

  /**
   The transcript of a completed run: the connection, the announcement and
   the command, then one record per complete line the splitter read, in order.
   */
  lemma RunTranscript(r: PipelineRunner, cmd: string, remote: Remote)
    requires remote.keyLoads && remote.connectError.None?
    ensures var o := Run(r, cmd, remote);
      var lines := CompleteLines(remote.stdout[..Consumed(remote.stdout, remote.polls)]);
      && |o.trace| >= 3 + |lines|
      && o.trace[..3] == [Connect(r.instanceIp, r.username), Info("[debugger]: Running " + cmd), RemoteCmd(cmd)]
      && o.trace[3..3 + |lines|] == LogLines(lines)
  {
    assert Run(r, cmd, remote) == Execute(r, cmd, remote);
  }

  /** Running a command never copies a file. */
  lemma RunCopiesNothing(r: PipelineRunner, cmd: string, remote: Remote)
    ensures Puts(Run(r, cmd, remote).trace) == []
  {
    if remote.keyLoads && remote.connectError.Some? {
      assert Run(r, cmd, remote).trace == [Connect(r.instanceIp, r.username), Logged(remote.connectError.value)];
    }
  }

  /**
   What happens to stdout in a completed run: the characters the splitter read
   are the logged lines followed by a partial line, which is neither logged nor
   part of the returned remainder `stream[k..]`.
   */
  lemma StdoutAccounting(stream: string, polls: nat)
    ensures var k := Consumed(stream, polls);
      var lines := CompleteLines(stream[..k]);
      && stream == Concat(lines) + Partial(stream[..k]) + stream[k..]
      && '\n' !in Partial(stream[..k])
      && (forall i :: 0 <= i < |lines| ==> IsLine(lines[i]))
  {
    var k := Consumed(stream, polls);
    LinesDecompose(stream[..k]);
    assert stream == stream[..k] + stream[k..];
  }

  /** The complete lines of the scripted output "a\nb\nc\n". */
  lemma ScriptedLines()
    ensures CompleteLines("a\nb\nc\n") == ["a\n", "b\n", "c\n"]
  {
    assert "\n"[1..] == "";
    assert Split("\n", '\n') == ["", ""];
    assert "c\n"[1..] == "\n";
    assert ['c'] + "" == "c";
    assert Split("c\n", '\n') == ["c", ""];
    assert "\nc\n"[1..] == "c\n";
    assert Split("\nc\n", '\n') == ["", "c", ""];
    assert "b\nc\n"[1..] == "\nc\n";
    assert ['b'] + "" == "b";
    assert Split("b\nc\n", '\n') == ["b", "c", ""];
    assert "\nb\nc\n"[1..] == "b\nc\n";
    assert Split("\nb\nc\n", '\n') == ["", "b", "c", ""];
    assert "a\nb\nc\n"[1..] == "\nb\nc\n";
    assert ['a'] + "" == "a";
    assert Split("a\nb\nc\n", '\n') == ["a", "b", "c", ""];
    assert "a" + "\n" == "a\n" && "b" + "\n" == "b\n" && "c" + "\n" == "c\n";
  }

  /** A one-character line is a complete line whose text is that character. */
  lemma OneCharLine(x: char)
    requires x != '\n'
    ensures IsLine([x, '\n']) && [x, '\n'][..1] == [x]
  {
    assert [x, '\n'][..1] == [x];
  }

  /** The records logged for the scripted lines. */
  lemma ScriptedLogs()
    ensures LogLines(["a\n", "b\n", "c\n"]) == [Info("a"), Info("b"), Info("c")]
  {
    var ls := ["a\n", "b\n", "c\n"];
    OneCharLine('a');
    OneCharLine('b');
    OneCharLine('c');
    var es := LogLines(ls);
    assert es[0] == Info("a");
    assert es[1] == Info("b");
    assert es[2] == Info("c");
  }

  /**
   Output "a\nb\nc\n" read to the end before the exit status is ready: the
   three lines are logged, and nothing is left to return.
   */
  lemma FullyStreamedExample(r: PipelineRunner, cmd: string)
    ensures var o := Run(r, cmd, Remote(true, None, "a\nb\nc\n", "", 6));
      o.Done? && o.value.1 == CommandResult("", "") &&
      |o.trace| >= 6 && o.trace[3..6] == [Info("a"), Info("b"), Info("c")]
  {
    var t := "a\nb\nc\n";
    var remote := Remote(true, None, t, "", 6);
    var lines := ["a\n", "b\n", "c\n"];
    assert Consumed(t, 6) == 6;
    assert CompleteLines(t[..6]) == lines by {
      assert t[..6] == t;
      ScriptedLines();
    }
    ScriptedLogs();
    assert Strip(t[6..], '\n') == "" && Strip("", '\n') == "" by {
      assert t[6..] == "";
      assert AllOf("", '\n');
    }
    RunTranscript(r, cmd, remote);
  }

  /**
   The same output when the exit status is ready before the first read:
   nothing is logged line by line and the whole output is returned, trimmed.
   */
  lemma UnstreamedExample(r: PipelineRunner, cmd: string)
    ensures var o := Run(r, cmd, Remote(true, None, "a\nb\nc\n", "", 0));
      o.Done? && o.value.1 == CommandResult("a\nb\nc", "")
  {
    var t := "a\nb\nc\n";
    assert t[0..] == t;
    assert StripLeft(t, '\n') == t;
    assert t[..5] == "a\nb\nc";
    assert StripRight(t[..5], '\n') == "a\nb\nc";
    assert AllOf("", '\n');
  }
}

=== FILE: sync.dfy ===
/**
 The change uploader and the input-descriptor sync: parsing the changed-file
 list, mapping each file to its remote path, copying the files over the
 session's transport, and the remote command that fetches a flight's input
 descriptor.
 */
module Sync {
  import opened Effects
  import opened Text
  import opened Runner

  /**
   The changed-file list of `git diff --name-only` output: the output without
   surrounding newlines, split at newlines. It is never empty; no output at
   all gives one empty entry.
   */
  function GitDiff(output: string): (files: seq<string>)
    ensures |files| == Count(Strip(output, '\n'), '\n') + 1
    ensures forall i :: 0 <= i < |files| ==> '\n' !in files[i]
    ensures Join(files, '\n') == Strip(output, '\n')
    ensures AllOf(output, '\n') ==> files == [""]
  {
    var files := Split(Strip(output, '\n'), '\n');
    JoinSplit(Strip(output, '\n'), '\n');
    files
  }

  lemma {:induction false} JoinEnds(names: seq<string>, sep: char)
    requires |names| > 0
    requires forall i :: 0 <= i < |names| ==> names[i] != ""
    ensures var j := Join(names, sep);
            |j| > 0 && j[0] == names[0][0] && j[|j| - 1] == names[|names| - 1][|names[|names| - 1]| - 1]
  {
    if |names| > 1 {
      var rest := Join(names[1..], sep);
      JoinEnds(names[1..], sep);
      var j := names[0] + [sep] + rest;
      assert Join(names, sep) == j;
      assert j[0] == names[0][0];
      assert j[|j| - 1] == rest[|rest| - 1];
      assert names[1..][|names| - 2] == names[|names| - 1];
    }
  }

  /**
   Round trip with the diff tool: when it prints one line per changed file,
   the parsed list is exactly the files, in order.
   */
  lemma GitDiffOfNames(names: seq<string>)
    requires |names| > 0
    requires forall i :: 0 <= i < |names| ==> names[i] != "" && '\n' !in names[i]
    ensures GitDiff(Join(names, '\n') + "\n") == names
  {
    var j := Join(names, '\n');
    JoinEnds(names, '\n');
    assert names[0][0] in names[0];
    var last := names[|names| - 1];
    assert last[|last| - 1] in last;
    var t := j + "\n";
    assert StripLeft(t, '\n') == t;
    assert t[..|t| - 1] == j;
    assert StripRight(t, '\n') == StripRight(j, '\n');
    assert StripRight(j, '\n') == j;
    SplitJoin(names, '\n');
  }

  /** One changed file parses to a one-element list. */
  lemma GitDiffSingle(name: string)
    requires name != "" && '\n' !in name
    ensures GitDiff(name + "\n") == [name]
  {
    GitDiffOfNames([name]);
  }

  /** The remote directory changed files are copied into. */
  const RemoteDirectory := "~/" + Directory + "/"

  /** The remote path a changed file is copied to. */
  function RemotePath(file: string): string {
    RemoteDirectory + file
  }

  /**
   Each changed file paired with its remote path, in list order: every
   destination lies in the remote directory and names its file.
   */
  function UploadPairs(files: seq<string>): (pairs: seq<(string, string)>)
    ensures |pairs| == |files|
    ensures forall i :: 0 <= i < |files| ==>
      && pairs[i].0 == files[i]
      && |RemoteDirectory| <= |pairs[i].1|
      && pairs[i].1[..|RemoteDirectory|] == RemoteDirectory
      && pairs[i].1[|RemoteDirectory|..] == files[i]
  {
    var pairs := seq(|files|, i requires 0 <= i < |files| => (files[i], RemotePath(files[i])));
    forall i | 0 <= i < |files|
      ensures pairs[i].1[..|RemoteDirectory|] == RemoteDirectory && pairs[i].1[|RemoteDirectory|..] == files[i]
    {
      assert pairs[i].1 == RemoteDirectory + files[i];
    }
    pairs
  }

  /** Two files are copied to the same destination exactly when they are the same file. */
  lemma DestinationsDistinct(files: seq<string>, i: nat, j: nat)
    requires i < |files| && j < |files|
    ensures UploadPairs(files)[i].1 == UploadPairs(files)[j].1 <==> files[i] == files[j]
  {
    var pairs := UploadPairs(files);
    if pairs[i].1 == pairs[j].1 {
      assert files[i] == pairs[i].1[|RemoteDirectory|..];
    }
  }

  /** The events of copying `pairs`: for each, a log record and then the copy. */
  function CopyEvents(pairs: seq<(string, string)>): (es: seq<Event>)
    ensures Puts(es) == pairs
    ensures Commands(es) == []
    ensures |es| == 2 * |pairs|
  {
    if |pairs| == 0 then []
    else
      var head := [Info("[debugger]: Uploading " + pairs[0].0 + " to " + pairs[0].1), Put(pairs[0].0, pairs[0].1)];
      var rest := CopyEvents(pairs[1..]);
      PutsAppend(head, rest);
      CommandsAppend(head, rest);
      assert Puts(head) == [pairs[0]];
      assert Commands(head) == [];
      assert pairs == [pairs[0]] + pairs[1..];
      head + rest
  }

  /**
   Copy every pair over the session's transport, one copy per pair, in list
   order. Without a connected session the transport lookup on `None` raises
   before anything is copied.
   */
  function Upload(r: PipelineRunner, pairs: seq<(string, string)>): (o: Outcome<()>)
    ensures o.Done? <==> r.connected
    ensures o.Done? ==> Puts(o.trace) == pairs
    ensures o.Stopped? ==> o == Stopped([], Raise(AttributeError))
    ensures Commands(o.trace) == []
  {
    if r.connected then Done(CopyEvents(pairs), ()) else Stopped([], Raise(AttributeError))
  }

  /** The warning given when the working directory is not the repository. */
  const NavigateWarning := "[debugger]: Navigate to " + Directory + " - where command 'git diff' would be meaningful."

  /**
   Push the working-tree changes: outside the repository directory warn and
   exit; inside it, upload every changed file to its remote path, but only
   when the parsed list has more than one entry.
   */
  function Update(r: PipelineRunner, cwdBase: string, gitOutput: string): (o: Outcome<()>)
    ensures cwdBase != Directory ==> o == Stopped([Warn(NavigateWarning)], Exit)
    ensures cwdBase == Directory && |GitDiff(gitOutput)| <= 1 ==> o == Done([], ())
    ensures cwdBase == Directory && |GitDiff(gitOutput)| > 1 ==>
      (o.Done? <==> r.connected) &&
      (o.Done? ==> Puts(o.trace) == UploadPairs(GitDiff(gitOutput))) &&
      (o.Stopped? ==> o == Stopped([], Raise(AttributeError)))
    ensures Commands(o.trace) == []
  {
    if cwdBase == Directory then
      var files := GitDiff(gitOutput);
      if |files| > 1 then Upload(r, UploadPairs(files)) else Done([], ())
    else
      assert Commands([Warn(NavigateWarning)]) == [];
      Stopped([Warn(NavigateWarning)], Exit)
  }

  /** Outside the repository directory the diff output is never consulted. */
  lemma UpdateIgnoresDiffOutside(r: PipelineRunner, cwdBase: string, g1: string, g2: string)
    requires cwdBase != Directory
    ensures Update(r, cwdBase, g1) == Update(r, cwdBase, g2)
    ensures Puts(Update(r, cwdBase, g1).trace) == []
  {
    assert Puts([Warn(NavigateWarning)]) == [];
  }

  /** A change set of exactly one file is never uploaded, however the session stands. */
  lemma SingleFileNeverUploaded(r: PipelineRunner, name: string)
    requires name != "" && '\n' !in name
    ensures Update(r, Directory, name + "\n") == Done([], ())
  {
    GitDiffSingle(name);
  }

  /** No changes at all uploads nothing. */
  lemma NoChangesNoUpload(r: PipelineRunner)
    ensures Update(r, Directory, "") == Done([], ())
  {
    assert AllOf("", '\n');
  }

  /**
   Two or more changed files, over a connected session, are each copied to
   `~/<directory>/<file>`, in the order the diff tool printed them.
   */
  lemma ManyFilesUploadedInOrder(r: PipelineRunner, names: seq<string>)
    requires r.connected && |names| > 1
    requires forall i :: 0 <= i < |names| ==> names[i] != "" && '\n' !in names[i]
    ensures var copies := Puts(Update(r, Directory, Join(names, '\n') + "\n").trace);
      |copies| == |names| &&
      forall i :: 0 <= i < |names| ==> copies[i] == (names[i], "~/" + Directory + "/" + names[i])
  {
    GitDiffOfNames(names);
    var copies := Puts(Update(r, Directory, Join(names, '\n') + "\n").trace);
    forall i | 0 <= i < |names|
      ensures copies[i] == (names[i], "~/" + Directory + "/" + names[i])
    {
      var d := copies[i].1;
      assert d == d[..|RemoteDirectory|] + d[|RemoteDirectory|..];
    }
  }

  /** Where a flight's input descriptor is fetched from. */
  function SyncSource(flight: string): string {
    ProdRepo + "/" + flight + "/input.json"
  }

  /** Where a flight's input descriptor is written, relative to the remote home directory. */
  function SyncDestination(flight: string, folder: string): string {
    Directory + "/" + folder + "/" + flight + ".json"
  }

  /** The remote command that copies a flight's input descriptor from object storage. */
  function SyncInputJson(flight: string, folder: string): string {
    "aws s3 cp " + ProdRepo + "/" + flight + "/input.json " + Directory + "/" + folder + "/" + flight + ".json"
  }

  /** The sync command is a copy from the flight's source to its destination. */
  lemma SyncCommandShape(flight: string, folder: string)
    ensures SyncInputJson(flight, folder) == "aws s3 cp " + SyncSource(flight) + " " + SyncDestination(flight, folder)
  {
  }
}

=== FILE: text.dfy ===
/**
 The three Python string operations the debugger relies on, for a single
 separator character: `s.split(c)`, `c.join(parts)` and `s.strip(c)`.
 */
module Text {

  /** Number of occurrences of `c` in `s`. */
  function Count(s: string, c: char): nat {
    if |s| == 0 then 0 else (if s[0] == c then 1 else 0) + Count(s[1..], c)
  }

  /** Python `s.split(sep)`: the pieces between separators; never empty. */
  function Split(s: string, sep: char): (parts: seq<string>)
    ensures |parts| == Count(s, sep) + 1
    ensures forall i :: 0 <= i < |parts| ==> sep !in parts[i]
  {
    if |s| == 0 then [""]
    else
      var rest := Split(s[1..], sep);
      if s[0] == sep then [""] + rest
      else [[s[0]] + rest[0]] + rest[1..]
  }

  /** Python `sep.join(parts)` for a non-empty list. */
  function Join(parts: seq<string>, sep: char): string
    requires |parts| > 0
  {
    if |parts| == 1 then parts[0] else parts[0] + [sep] + Join(parts[1..], sep)
  }

  /** Joining the pieces of a split gives the string back. */
  lemma {:induction false} JoinSplit(s: string, sep: char)
    ensures Join(Split(s, sep), sep) == s
  {
    if |s| > 0 {
      var rest := Split(s[1..], sep);
      JoinSplit(s[1..], sep);
      if s[0] == sep {
        assert ([""] + rest)[1..] == rest;
      } else if |rest| > 1 {
        assert ([[s[0]] + rest[0]] + rest[1..])[1..] == rest[1..];
        assert Join(rest, sep) == rest[0] + [sep] + Join(rest[1..], sep);
      }
    }
  }

  /** Splitting a prefix without separators only extends the first piece. */
  lemma {:induction false} SplitPrepend(a: string, t: string, sep: char)
    requires sep !in a
    ensures Split(a + t, sep) == [a + Split(t, sep)[0]] + Split(t, sep)[1..]
  {
    if |a| > 0 {
      assert a[0] != sep;
      assert (a + t)[1..] == a[1..] + t;
      SplitPrepend(a[1..], t, sep);
      assert [a[0]] + (a[1..] + Split(t, sep)[0]) == a + Split(t, sep)[0];
    } else {
      var p := Split(t, sep);
      assert a + t == t;
      assert a + p[0] == p[0];
      assert p == [p[0]] + p[1..];
    }
  }

  /** Splitting a join of separator-free pieces gives the pieces back. */
  lemma {:induction false} SplitJoin(parts: seq<string>, sep: char)
    requires |parts| > 0
    requires forall i :: 0 <= i < |parts| ==> sep !in parts[i]
    ensures Split(Join(parts, sep), sep) == parts
  {
    if |parts| == 1 {
      SplitPrepend(parts[0], "", sep);
      assert parts[0] + "" == parts[0];
    } else {
      var tail := Join(parts[1..], sep);
      SplitJoin(parts[1..], sep);
      assert Join(parts, sep) == parts[0] + [sep] + tail;
      assert parts[0] + [sep] + tail == parts[0] + ([sep] + tail);
      SplitPrepend(parts[0], [sep] + tail, sep);
      assert ([sep] + tail)[1..] == tail;
      assert Split([sep] + tail, sep) == [""] + Split(tail, sep);
      assert parts[0] + "" == parts[0];
      assert parts == [parts[0]] + parts[1..];
    }
  }

  /** Appending a separator opens a new, empty last piece. */
  lemma {:induction false} SplitSnocSep(s: string, sep: char)
    ensures Split(s + [sep], sep) == Split(s, sep) + [""]
  {
    if |s| == 0 {
      assert s + [sep] == [sep];
      assert Split([sep][1..], sep) == [""];
    } else {
      assert (s + [sep])[1..] == s[1..] + [sep];
      SplitSnocSep(s[1..], sep);
      var rest := Split(s[1..], sep);
      if s[0] != sep {
        assert (rest + [""])[0] == rest[0];
        assert (rest + [""])[1..] == rest[1..] + [""];
      }
    }
  }

  /** Appending any other character extends the last piece. */
  lemma {:induction false} SplitSnocOther(s: string, c: char, sep: char)
    requires c != sep
    ensures var p := Split(s, sep);
            Split(s + [c], sep) == p[..|p| - 1] + [p[|p| - 1] + [c]]
  {
    if |s| == 0 {
      assert s + [c] == [c];
      assert Split([c][1..], sep) == [""];
      assert [c][0] == c && [c] + "" == [c] && [""][1..] == [];
      assert Split([c], sep) == [[c]];
      assert Split(s, sep) == [""];
    } else {
      assert (s + [c])[1..] == s[1..] + [c];
      SplitSnocOther(s[1..], c, sep);
      var rest := Split(s[1..], sep);
      var rest' := rest[..|rest| - 1] + [rest[|rest| - 1] + [c]];
      assert Split(s[1..] + [c], sep) == rest';
      if s[0] != sep {
        var p := [[s[0]] + rest[0]] + rest[1..];
        assert Split(s, sep) == p;
        if |rest| == 1 {
          assert rest' == [rest[0] + [c]];
          assert [s[0]] + (rest[0] + [c]) == ([s[0]] + rest[0]) + [c];
        } else {
          assert rest'[0] == rest[0];
          assert rest'[1..] == rest[1..][..|rest| - 2] + [rest[|rest| - 1] + [c]];
        }
      } else {
        assert Split(s, sep) == [""] + rest;
      }
    }
  }

  /** Python `s.lstrip(c)`. */
  function StripLeft(s: string, c: char): (r: string)
    ensures |r| <= |s| && r == s[|s| - |r|..]
    ensures forall i :: 0 <= i < |s| - |r| ==> s[i] == c
    ensures |r| == 0 || r[0] != c
  {
    if |s| > 0 && s[0] == c then StripLeft(s[1..], c) else s
  }

  /** Python `s.rstrip(c)`. */
  function StripRight(s: string, c: char): (r: string)
    ensures |r| <= |s| && r == s[..|r|]
    ensures forall i :: |r| <= i < |s| ==> s[i] == c
    ensures |r| == 0 || r[|r| - 1] != c
  {
    if |s| > 0 && s[|s| - 1] == c then StripRight(s[..|s| - 1], c) else s
  }

  /** Every character of `s` is `c`. */
  predicate AllOf(s: string, c: char) {
    forall i :: 0 <= i < |s| ==> s[i] == c
  }

  /**
   Python `s.strip(c)`: `s` with every leading and trailing `c` removed. The
   result is a contiguous piece of `s`, only copies of `c` were removed around
   it, and it neither starts nor ends with `c`.
   */
  function Strip(s: string, c: char): (r: string)
    ensures |r| <= |s|
    ensures |r| == 0 || (r[0] != c && r[|r| - 1] != c)
    ensures r == "" <==> AllOf(s, c)
  {
    StripRight(StripLeft(s, c), c)
  }

  /**
   `Strip` removes only copies of `c`, and only around a contiguous piece of
   `s`: the piece starts at `k`.
   */
  lemma StripRemovesOnlyEnds(s: string, c: char) returns (k: nat)
    ensures k + |Strip(s, c)| <= |s|
    ensures s[k..k + |Strip(s, c)|] == Strip(s, c)
    ensures AllOf(s[..k], c) && AllOf(s[k + |Strip(s, c)|..], c)
  {
    var l := StripLeft(s, c);
    k := |s| - |l|;
    PieceBetween(s, l, StripRight(l, c), c);
  }

  /**
   A suffix `l` of `s` preceded only by copies of `c`, and a prefix `r` of `l`
   followed only by copies of `c`: `r` sits in `s` between two runs of `c`.
   */
  lemma PieceBetween(s: string, l: string, r: string, c: char)
    requires |l| <= |s| && l == s[|s| - |l|..]
    requires forall i :: 0 <= i < |s| - |l| ==> s[i] == c
    requires |r| <= |l| && r == l[..|r|]
    requires forall i :: |r| <= i < |l| ==> l[i] == c
    ensures var k := |s| - |l|;
      && s[k..k + |r|] == r
      && AllOf(s[..k], c)
      && AllOf(s[k + |r|..], c)
  {
    var k := |s| - |l|;
    assert AllOf(s[..k], c) by {
      forall i | 0 <= i < k
        ensures s[..k][i] == c
      {
      }
    }
    assert s[k..k + |r|] == r by {
      assert s[k..k + |r|] == l[..|r|];
    }
    var after := s[k + |r|..];
    assert AllOf(after, c) by {
      forall i | 0 <= i < |after|
        ensures after[i] == c
      {
        assert after[i] == l[|r| + i];
      }
    }
  }

  /** Stripping is idempotent. */
  lemma StripIdempotent(s: string, c: char)
    ensures Strip(Strip(s, c), c) == Strip(s, c)
  {
    StripClean(Strip(s, c), c);
  }

  /** A string that neither starts nor ends with `c` is left alone by `Strip`. */
  lemma StripClean(s: string, c: char)
    requires |s| == 0 || (s[0] != c && s[|s| - 1] != c)
    ensures Strip(s, c) == s
  {
    if |s| > 0 {
      assert StripLeft(s, c) == s;
      assert StripRight(s, c) == s;
    }
  }

  /** The pieces of a three-part concatenation sit at their offsets. */
  lemma Slices<T>(a: seq<T>, b: seq<T>, c: seq<T>)
    ensures (a + b + c)[..|a|] == a
    ensures (a + b + c)[|a|..|a| + |b|] == b
  {
  }
}
